=== FILE: README.md ===
# XDR memory codec in Dafny

A model of the in-memory codec of XDR.CPP, an OS/2 implementation of the
External Data Representation of RFC 1014. The following parts are modelled:

- The MEMORY backend of an XDR handle: `xdrmem_create`, `xdr_read`,
  `xdr_write` (with the doubling of a buffer the library owns),
  `xdr_getpos`, `xdr_setpos` and `xdr_destroy`.
- The one-unit codecs: `xdr_char`, `xdr_short`, `xdr_u_short`, `xdr_int`,
  `xdr_u_int`, `xdr_long`, `xdr_u_long`, `xdr_enum` and `xdr_void`.
- The variable-length codecs: `xdr_string`, `xdr_opaque` and `xdr_bytes`.
- The composite codecs, each generic over its element procedure:
  `xdr_vector`, `xdr_array`, `xdr_union`, `xdr_reference` and `xdr_pointer`.
- `xdr_free`.
- The write-then-read exchange of xdrtest.cpp on a memory stream.

A handle is an immutable `Stream`. It holds the mode (`XDR_OP`), the
buffer, the cursor and the ownership flag `fAlloc`. Every `xdr_*` procedure
becomes a pure function `(Stream, T) -> Res<T>`. The result carries the
procedure's BOOL, the stream after the call, and the value behind the
caller's pointer after the call. A pointer the procedure may allocate or
release is an `Option` slot, with `None` standing for NULL. Wire bytes are
`byte` values. A 32-bit value sits in its unit most significant byte first,
whatever the host order.

The quirks of the code are modelled as written:

- The results of the string and bytes length codecs, the union
  discriminant and the pointer flag are ignored. A failed length read in
  `xdr_string` leaves the uninitialised local `len` in use; the model makes
  it an explicit `junk` parameter.
- `xdr_array` leaves the caller's pointer past the last element.
- `xdr_pointer` leaves the caller's pointer unchanged when it decodes a 0
  flag.
- `xdr_setpos` does not check bounds.
- A union discriminant of 0 never selects an arm.

`xdr_short` puts uninitialised stack bytes on the wire. The model keeps that
version as `Primitives.ShortAsWritten` and uses a zero-filled `Primitives.Short`
everywhere else (see Findings).

In these cases a failed decode still changes the target, and the model
keeps those changes:

- `xdr_opaque` keeps the payload it already copied when the read of the pad
  fails (XDR.CPP:563-566).
- `xdr_string` and `xdr_bytes` leave a decode-allocated buffer with the
  caller when the payload read fails (XDR.CPP:503-511, XDR.CPP:628-632).
- `xdr_array` leaves the element pointer advanced past the elements it
  handled before a failure (XDR.CPP:716-718).

Files: `wrappers.dfy` (NULL-able slots), `wire.dfy` (widths, RNDUP, units),
`memstream.dfy` (the backend), `codec.dfy` (procedures and the round-trip
predicates), `primitives.dfy`, `varlen.dfy`, `composite.dfy` and
`scenario.dfy` (the xdrtest.cpp exchange).

## Model

| member | source | states |
|---|---|---|
| Wire.RndUp | XDR.CPP:78 | RNDUP gives a multiple of 4 that is at least n and less than n + 4 |
| Wire.Padded | XDR.CPP:481-492 | a padded payload is RNDUP(len) bytes long, starts with the payload, and every pad byte is zero |
| Wire.Unit | XDR.CPP:380-385 | a 32-bit value goes into one 4-byte unit that reads back, most significant byte first, as the same value |
| Wire.UnitOfUnitValue | XDR.CPP:387-393 | every 4-byte unit is the image of the value read from it, so the unit layout is a bijection |
| MemStream.Create | XDR.CPP:196-211 | a missing or empty region gives an owned 4096-byte buffer; otherwise the caller's region is bound, not owned; the mode is set and the cursor is 0 |
| MemStream.SetPos | XDR.CPP:249-262 | setpos always returns TRUE and moves the cursor to pos, even past the buffer's end; the buffer, ownership and mode are unchanged; getpos then reports pos |
| MemStream.Destroy | XDR.CPP:278-288 | an owned buffer is released; a caller's region stays with the caller, holding what was written to it |
| MemStream.Grow | XDR.CPP:130-135 | the doubling loop ends at the first size * 2^k that fits: never below the need or the old size, and less than twice the need when it grew |
| MemStream.Read | XDR.CPP:107-116 | a read succeeds exactly when offset + n fits the buffer; it then returns the n bytes at the cursor and advances by n; a failed read leaves the stream unchanged |
| MemStream.Write | XDR.CPP:125-142 | a write succeeds exactly when the buffer is owned or the data fits; a failed write changes nothing; a successful one puts the data at the cursor and advances by its length; it keeps every earlier byte and every later one, and the size is unchanged or grown to the doubled size |
| MemStream.WriteKeepsOtherBytes | XDR.CPP:130-141 | growth and copy change no byte of the old buffer outside the written range |
| MemStream.RewindReadsBackWrite | XDR.CPP:107-142 | moving the cursor with setpos back to where a write started, and reading as many bytes, returns exactly the written data |
| MemStream.OwnedWriteNeverFails | XDR.CPP:130-135 | a write into an owned buffer always succeeds and never shrinks it |
| Primitives.Int | XDR.CPP:376-400 | xdr_int: encode appends the value's big-endian unit and succeeds exactly when owned or there is room; decode succeeds exactly when a unit is left and returns the value that unit encodes; a failure leaves stream and target untouched; free does nothing |
| Primitives.UInt | XDR.CPP:407-410 | xdr_u_int succeeds exactly when xdr_int on the same 32 bits does, writes the value's unit, reads back the unit at the cursor, leaves stream and target untouched on failure, and does nothing in free mode |
| Primitives.Void | XDR.CPP:437-440 | xdr_void succeeds and touches neither the stream nor the value, in every mode |
| Primitives.Char | XDR.CPP:310-330 | xdr_char encodes three zero bytes and the character; decode returns the unit's last byte; a failure leaves stream and target untouched; free does nothing |
| Primitives.Short | XDR.CPP:338-358 | the zero-filled xdr_short encodes two zero bytes and the 16 bits high byte first; decode takes the two low bytes; a failure leaves stream and target untouched |
| Primitives.ShortDecode | XDR.CPP:347-352 | decoding a SHORT reads one unit, fails without touching the target when none is left, and returns the value whose low two bytes are those of the unit |
| Primitives.ShortAsWritten | XDR.CPP:338-345 | xdr_short as written: the unit sent is the two stale stack bytes followed by the 16 bits |
| Primitives.UShort | XDR.CPP:365-368 | xdr_u_short succeeds exactly when xdr_short on the same 16 bits does; encode writes that SHORT's unit; decode succeeds exactly when a unit is left and returns the USHORT whose low two bytes are the unit's; a failure leaves stream and target untouched; free does nothing |
| Primitives.UShortRoundTrip | XDR.CPP:365-368 | every USHORT round-trips through its unit, succeeds with room, and free does nothing |
| Primitives.IntRoundTrip | XDR.CPP:376-450 | xdr_int, xdr_long and xdr_enum append exactly the value's unit, decode it back to the value whatever the target held, and do nothing in free mode |
| Primitives.UIntRoundTrip | XDR.CPP:407-430 | xdr_u_int and xdr_u_long round-trip every UINT through its unit, and xdr_u_int does nothing in free mode |
| Primitives.CharRoundTrip | XDR.CPP:310-330 | every CHAR round-trips through its zero-filled unit, and free does nothing |
| Primitives.ShortRoundTrip | XDR.CPP:338-358 | every SHORT round-trips through the zero-filled unit, and free does nothing |
| Primitives.ShortBytesDetermineValue | XDR.CPP:347-352 | the two low bytes of a SHORT's unit determine the SHORT |
| Primitives.ShortAsWrittenLeaksStaleBytes | XDR.CPP:338-352 | with non-zero stale bytes, the unit xdr_short writes differs from the zero-filled one, yet decodes to the same SHORT |
| VarLen.FirstZero | XDR.CPP:476 | strlen is the index of the first 0 byte, and no earlier byte is 0 |
| VarLen.CStr | XDR.CPP:476 | the characters of a terminated buffer contain no 0 and are followed by the terminator |
| VarLen.CountedWire | XDR.CPP:479-492 | string and bytes take 4 + RNDUP(len) bytes, a multiple of 4 |
| VarLen.WritePadded | XDR.CPP:481-492 | the payload and its zero pad are appended exactly when owned or there is room for RNDUP(len) bytes; a failure of the tail write leaves the full units written |
| VarLen.PaddedParts | XDR.CPP:481-492 | the padded image is the full units followed by the remaining bytes in one zero-filled unit |
| VarLen.StringAlloc | XDR.CPP:503-508 | a NULL target gets at least len+1 and RNDUP(len) bytes: len+1 exactly when len is a multiple of 4, RNDUP(len) otherwise |
| VarLen.Fill | XDR.CPP:510-512 | after the read into the target, the first len bytes are the payload, byte len is 0, the read pad bytes follow, and the buffer keeps its size when big enough |
| VarLen.String | XDR.CPP:470-523 | free releases the string and leaves NULL; an encode of a string within max succeeds when owned or there is room; a decode into NULL with an acceptable length yields a buffer |
| VarLen.StringEncode | XDR.CPP:475-494 | NULL or too long fails before any write; otherwise success is owned, or room for the image, or (because the length write is unchecked) no room for the length but room for the payload; with the length written the counted padded image is appended |
| VarLen.LengthRead | XDR.CPP:498 | the length read returns the unit at the cursor and advances, or fails leaving cursor and variable as they were |
| VarLen.StringDecode | XDR.CPP:496-514 | decoding reads the length and goes on after it; when the length read fails, it goes on at the unmoved cursor with the uninitialised length |
| VarLen.StringAfterLength | XDR.CPP:500-514 | a length above max fails before allocating; success exactly when the length is within max and RNDUP(len) bytes are left; then the payload is in the buffer, terminated at index len |
| VarLen.StringTarget | XDR.CPP:503-508 | the buffer decoded into is the caller's, or a fresh one of the allocated size |
| VarLen.ReadInto | XDR.CPP:510-512 | the read succeeds exactly when RNDUP(len) bytes are left; a failure leaves the buffer as it was; a success copies them and puts the terminator at len |
| VarLen.StringDecodesWire | XDR.CPP:496-514 | a counted padded image of a string within max decodes to that string, consuming exactly the image; into NULL it arrives as the characters and zeros |
| VarLen.ReadIntoPadded | XDR.CPP:510-512 | reading a padded string image into any buffer yields that C string |
| VarLen.AllocatedString | XDR.CPP:503-512 | a fresh string buffer holding the characters and then zeros is exactly the characters padded with zeros |
| VarLen.CStrOfTerminated | XDR.CPP:512 | characters without a 0 followed by the terminator are read back as that C string |
| VarLen.StringRoundTrip | XDR.CPP:470-514 | a string encoded into a stream decodes from the written region to the same characters, whatever buffer the decoder starts with |
| VarLen.EmptyStringIntoFullBuffer | XDR.CPP:476-494 | the unchecked length write: the empty string into a full caller's buffer reports success and writes nothing |
| VarLen.StringDecodeWithoutLength | XDR.CPP:496-514 | the unchecked length read: at the buffer's end with a junk length of 0, decoding succeeds without a length on the wire and yields the empty string |
| VarLen.Opaque | XDR.CPP:541-575 | encode appends the payload and its zero pad exactly when owned or there is room for RNDUP(size); decode succeeds exactly when RNDUP(size) bytes are left, copies the payload first and keeps it if the pad read fails; free does nothing |
| VarLen.OpaqueRoundTrip | XDR.CPP:541-568 | opaque data encoded and decoded with the same size comes back, both sides moving by RNDUP(size) |
| VarLen.Bytes | XDR.CPP:595-641 | free releases the buffer and leaves NULL; an encode within max into an owned buffer succeeds; a decode reports the length on the wire in *psize |
| VarLen.BytesEncode | XDR.CPP:600-619 | NULL or a size above max fails before any write; otherwise success is owned, or room for the image, or (length write unchecked) room for the payload alone; with the length written the counted padded image is appended |
| VarLen.BytesDecode | XDR.CPP:621-632 | decoding reads the length and goes on after it; when the length read fails, the caller's *psize is the length, at the unmoved cursor |
| VarLen.BytesAfterLength | XDR.CPP:623-632 | *psize holds the length; above max fails before allocating; success exactly when RNDUP(n) bytes are left, which are then at the buffer's start; a NULL target gets RNDUP(n) bytes, kept even on failure |
| VarLen.BytesDecodesWire | XDR.CPP:621-632 | a counted padded image decodes to its length and payload, consuming the image; into NULL exactly the padded payload arrives |
| VarLen.BytesRoundTrip | XDR.CPP:595-632 | bytes encoded into a stream decode from the written region to the same length and payload |
| VarLen.BytesDecodeWithoutLength | XDR.CPP:621-632 | the unchecked length read: at the buffer's end with *psize 0, decoding succeeds with nothing on the wire |
| Composite.WiresUniform | XDR.CPP:661 | elements whose images have one width n take n bytes each |
| Composite.Each | XDR.CPP:661-666 | the element loop reports how many elements it handled, succeeds exactly when it handled all of them, and leaves every element after the failing one untouched |
| Composite.EachStopsAtFirstFailure | XDR.CPP:661-666 | when the first k elements succeed and element k fails, the loop fails with k reported done, the stream the failing call left, that element as the call left it, and the later elements unvisited |
| Composite.EachFailsAtDone | XDR.CPP:661-666 | a failed loop failed at element `done`: every element before it succeeded and that one did not |
| Composite.EachEncodes | XDR.CPP:661-666 | encoding every element appends their images in order and changes no element |
| Composite.EachSucceeds | XDR.CPP:661-666 | with room for all images, every element encodes |
| Composite.EachDecodes | XDR.CPP:661-666 | the images of a run of elements decode into any run of as many elements, giving them back and consuming exactly the images |
| Composite.EachFrees | XDR.CPP:661-666 | with element procedures that own nothing, free mode leaves the run alone |
| Composite.Vector | XDR.CPP:659-667 | xdr_vector succeeds exactly when the loop handled every element, and leaves the elements after a failing one untouched |
| Composite.VectorStopsAtFirstFailure | XDR.CPP:659-667 | a failure at element k after k successes fails xdr_vector, with the stream the failing call left and the elements after it untouched |
| Composite.VectorRoundTrip | XDR.CPP:659-667 | a vector encodes as its elements' images with no count, and decodes back from them into any array of the same length |
| Composite.Elements | XDR.CPP:715-720 | the array loop keeps the allocation's size and the elements outside the range, succeeds exactly when the pointer has moved past all count elements, never moves it further, and leaves it one element on per element handled |
| Composite.ElementsStopAtFirstFailure | XDR.CPP:715-720 | a failure at element k after k successes fails the loop with the caller's pointer k elements on, at the failing element, and the stream that element's call left |
| Composite.Array | XDR.CPP:686-721 | free mode always succeeds without touching the stream; it releases the allocation (leaving NULL) when the pointer is NULL or at its start, and otherwise leaves the slot as it was |
| Composite.ArrayEncode | XDR.CPP:691-697 | a count above max fails before anything is written; no room for the count fails unchanged; on success the pointer stands count elements on |
| Composite.ArrayDecode | XDR.CPP:699-708 | no count left fails unchanged; the count read is reported; above max fails after the count, before allocating; a NULL slot gets count elements; on success the pointer stands count elements past where it started |
| Composite.ArrayDecodesInto | XDR.CPP:699-720 | a caller's array with room for just the count on the wire (not for max elements) receives the elements, and the pointer is left past them |
| Composite.ArrayFreeAfterDecode | XDR.CPP:710-716 | after a decode into NULL, free mode on the pointer handed back releases nothing: the pointer is past the allocation's start |
| Composite.ArrayEncodes | XDR.CPP:686-720 | an encoded array is its count unit then its elements' images, and the caller's pointer is left past the elements |
| Composite.ElementsEncode | XDR.CPP:715-720 | a successful encode loop appends the images of the count elements and leaves them unchanged |
| Composite.ArrayDecodes | XDR.CPP:699-720 | a count within max and the elements' images decode into a NULL slot as those elements, but the pointer handed back stands past the last one: the base address is lost |
| Composite.ArrayDecodeIntoNull | XDR.CPP:699-708 | a count within max read into a NULL slot runs the loop over a fresh allocation of count elements |
| Composite.ElementsDecode | XDR.CPP:715-720 | the decode loop over an allocation of as many elements as images yields those elements and consumes the images |
| Composite.Scan | XDR.CPP:745-746 | the scan stops at the first entry that is the sentinel or matches, and every entry before it is neither |
| Composite.Union | XDR.CPP:739-752 | the discriminant left is what xdr_int produced, whether or not it succeeded; encode never changes it |
| Composite.UnionRunsFirstMatch | XDR.CPP:743-749 | the first entry before the sentinel that matches the discriminant handles the body |
| Composite.UnionFallsToDefault | XDR.CPP:745-751 | with no matching entry before the sentinel, the default arm handles the body, and without one the call fails |
| Composite.UnionZeroNeverSelects | XDR.CPP:745-751 | a discriminant of 0 never selects an arm: without a default the call fails |
| Composite.UnionEncodes | XDR.CPP:743-749 | a union is written as the discriminant's unit followed by the selected arm's image |
| Composite.UnionDecodes | XDR.CPP:743-749 | a discriminant unit and the selected arm's image decode to that discriminant and body, whatever the target held |
| Composite.Reference | XDR.CPP:769-789 | encode refuses NULL without writing; decode runs the element procedure on the caller's element when the pointer is non-NULL and on a fresh allocation only when it is NULL; free releases without calling the element procedure |
| Composite.ReferenceDecodeIgnoresBlank | XDR.CPP:778-781 | decode allocates only when the pointer is NULL: into a non-NULL pointer, the contents a fresh allocation would have do not affect the result |
| Composite.ReferenceRoundTrip | XDR.CPP:769-788 | a reference encodes as its element's image and decodes back into a NULL or non-NULL slot alike |
| Composite.Flag | XDR.CPP:809 | the flag is 0 exactly when the pointer is NULL |
| Composite.Pointer | XDR.CPP:806-816 | a NULL pointer encodes as a lone 0 unit and succeeds; the flag write is unchecked, so with no room it writes nothing; free releases and leaves NULL |
| Composite.PointerRoundTrip | XDR.CPP:806-816 | present data is the flag 1 followed by the element's image, and decodes back into any slot |
| Composite.PointerZeroFlagKeepsSlot | XDR.CPP:809-815 | decoding a 0 flag consumes one unit and leaves the caller's pointer as it was, a stale element included |
| Composite.NullPointerIntoFullBuffer | XDR.CPP:809-815 | the unchecked flag write: a NULL pointer into a full caller's buffer reports success and writes nothing |
| Composite.FreeBy | XDR.CPP:831-841 | xdr_free releases exactly when the pointer is non-NULL and the procedure is one of the six procedures xdr_free lists (XDR.CPP:833-838; xdr_vector among them, although it allocates nothing); otherwise the pointer is left as it was |
| Composite.FreeByMatchesFreeMode | XDR.CPP:831-841 | xdr_free on a string, bytes, reference or pointer leaves what running that procedure in free mode leaves, and an array in free mode leaves NULL when its pointer is NULL or at its start |
| Scenario.OnWord | xdrtest.cpp:32-33 | the INT arms never touch the CHAR member, and change nothing outside decode |
| Scenario.OnCharacter | xdrtest.cpp:34 | the CHARACTER arm never touches the INT members, and changes nothing outside decode |
| Scenario.ArmsRoundTrip | xdrtest.cpp:31-35 | each arm appends its member's unit, succeeds with room, does nothing in free mode, and decodes its unit into its own member |
| Scenario.Front | xdrtest.cpp:113-114 | the INT and string calls change only i and str, and free mode leaves str NULL |
| Scenario.Back | xdrtest.cpp:115-116 | the vector and union calls leave i and str alone and keep the vector's length |
| Scenario.Exchange | xdrtest.cpp:60-80 | the four calls keep the vector's length, and free mode leaves the string NULL |
| Scenario.ImageLength | xdrtest.cpp:60-80 | the exchange's image is four units, the padded string and one unit per INT |
| Scenario.EncodeString | xdrtest.cpp:63-65 | with room, the string call succeeds and appends the counted padded string |
| Scenario.EncodeInts | xdrtest.cpp:67-70 | with room, the vector call succeeds and appends one unit per INT |
| Scenario.EncodeUnion | xdrtest.cpp:72-80 | with 8 bytes of room, the CHARACTER union appends its discriminant and the character's unit |
| Scenario.EncodeFront | xdrtest.cpp:60-65 | the INT and string calls append their units and change nothing |
| Scenario.EncodeBack | xdrtest.cpp:67-80 | the vector and union calls append the INTs, the discriminant and the character |
| Scenario.ExchangeEncodes | xdrtest.cpp:60-80 | with room for the image in the caller's region, every call succeeds and the image is appended |
| Scenario.DecodeUnion | xdrtest.cpp:116 | the CHARACTER arm reads the character back |
| Scenario.DecodeInt | xdrtest.cpp:113 | the INT call reads i back |
| Scenario.DecodeInts | xdrtest.cpp:115 | the vector call reads the INTs back |
| Scenario.DecodeFront | xdrtest.cpp:113-114 | the INT and string calls read i and the string back, consuming their image |
| Scenario.DecodeBack | xdrtest.cpp:115-116 | the vector and union calls read the INTs, the discriminant and the character back, consuming their image |
| Scenario.ExchangeDecodes | xdrtest.cpp:113-116 | the image decodes into variables with a terminated string and as many INTs, restoring the INT, the characters, the INTs, the discriminant and the character |
| Scenario.HalvesDecode | xdrtest.cpp:113-116 | decoding the front half and then the back half restores all five variables and consumes the image |
| Scenario.ImageHalves | xdrtest.cpp:60-80 | the image is the front half's followed by the back half's |
| Scenario.SentValues | xdrtest.cpp:60-79 | the test's values hold "test string" and make a 44-byte image |
| Scenario.InvalidatedValues | xdrtest.cpp:94-98 | the overwritten variables still hold a terminated string, four INTs and the CHARACTER discriminant |
| Scenario.XdrTestRoundTrip | xdrtest.cpp:42-118 | whatever the 4096-byte region held, encoding fills its first 44 bytes, and decoding from the region restores 9, "test string", 100 to 103 and the CHARACTER arm holding 'c' |

## Left out

- The STDIO backend (`xdrstdio_create` and the STDIO branches of `xdr_read`, `xdr_write`, `xdr_setpos` and `xdr_destroy`): these are calls into the C file library.
- `xdrmem_base`, pointer identity, and a double `free`: buffers are values, so there are no addresses to compare or release twice.
- The contents of memory from `malloc` and `realloc`: these are indeterminate in C. Grown bytes, a fresh library page and fresh string or bytes buffers are zero bytes here. A fresh array's elements are a caller-supplied `blank`.
- 32-bit wrap-around of `offset + cBytes`, of the doubled `ulSize` and of `RNDUP`: sizes and offsets are unbounded naturals here.
- VarLen.Overlay: a caller's string or bytes buffer that is shorter than the data read is taken as extended, where the C code writes past its end.
- VarLen.Terminate: a caller's string buffer exactly len bytes long (len a multiple of 4) is extended by one byte for the terminator, where the C code writes it past the end.
- Composite.Array: free mode on a pointer advanced past elements (as encode and decode leave it) is undefined in C, which passes that pointer to free; the model releases nothing and leaves the slot.
- Scenario.Payload: the members of the test's C union share storage, so decoding an INT arm would also change the character; here they are separate fields. The exchange uses only the CHARACTER arm.
- A released slot becomes NULL (`None`): the C code leaves the caller's pointer dangling.
- Composite.FreeBy: `xdr_free` recognises procedures by comparing function addresses; the model takes a tag naming the procedure instead.
- The type erasure of `xdrproc_t` and the element size `cbObj`: element procedures are typed functions over element values.
- xdrtest.cpp's console output, the file variant of the test, and C++ `new`: the test is modelled only as the memory exchange.
- Scenario.Exchange: the uninitialised length `xdr_string` falls back on when its length read fails is fixed at 0 in the exchange. The exchange's image always holds the length, so that path is not taken there.
- Composite.Union: its own contract states only the discriminant. Which arm runs is stated by UnionRunsFirstMatch, UnionFallsToDefault and UnionZeroNeverSelects.
- MemStream.GetPos has no contract of its own: it returns the cursor, and SetPos states what it reports.
- Primitives.Long, Primitives.ULong and Primitives.Enum are aliases with no contract of their own: IntRoundTrip and UIntRoundTrip state what they do.

## Findings

| source | as written | input that shows it | evidently intended | confidence | as-written member | corrected member |
|---|---|---|---|---|---|---|
| XDR.CPP:338-345 | `xdr_short` sets only the last two bytes of its local unit and writes all four, so the first two are whatever the stack held | encoding any SHORT when the two stale stack bytes are not both 0: the unit on the wire differs from 00 00 hi lo | the unit zero-filled first, as `xdr_char` does at XDR.CPP:313, so the unused high bytes are 0 | not executed | Primitives.ShortAsWrittenLeaksStaleBytes | Primitives.ShortRoundTrip |

=== FILE: codec.dfy ===
/** What an xdr_* procedure is, in typed form: one function per data type
    whose behaviour (encode, decode or free) is chosen by the XDR_OP of the
    stream it is given, and the properties that make a procedure and a wire
    image fit together. */
module Codec {
  import opened Wire
  import opened MemStream

  /** The result of one xdr_* call: its BOOL, the stream after it, and the
      value behind the caller's pointer after it (the call may have written
      through that pointer). */
  datatype Res<T> = Res(ok: bool, s: Stream, v: T)

  /** xdrproc_t without the type erasure: BOOL (*)(XDR *, T *). */
  type Proc<!T> = (Stream, T) -> Res<T>

  /** Encoding v appends exactly wire(v) and leaves v alone. */
  ghost predicate EncodesAs<T(!new)>(c: Proc<T>, wire: T -> seq<byte>)
  {
    forall s: Stream, v: T :: s.op == Encode && c(s, v).ok ==> Appended(s, c(s, v).s, wire(v)) && c(s, v).v == v
  }

  /** Encoding succeeds whenever the buffer is the library's own or has room
      for the image. */
  ghost predicate WritesWhenRoom<T(!new)>(c: Proc<T>, wire: T -> seq<byte>)
  {
    forall s: Stream, v: T :: s.op == Encode && (s.owned || s.offset + |wire(v)| <= |s.buf|) ==> c(s, v).ok
  }

  /** Decoding a stream whose cursor stands on wire(v) succeeds, yields v
      whatever the target held before, and consumes exactly wire(v). */
  ghost predicate DecodesAs<T(!new)>(c: Proc<T>, wire: T -> seq<byte>)
  {
    forall d: Stream, t: T, v: T :: d.op == Decode && HoldsAt(d, wire(v)) ==> c(d, t) == Res(true, Advance(d, |wire(v)|), v)
  }

  /** In free mode the procedure succeeds and touches neither the stream nor
      the value: it owns no memory. */
  ghost predicate FreesNothing<T(!new)>(c: Proc<T>)
  {
    forall s: Stream, v: T :: s.op == Free ==> c(s, v) == Res(true, s, v)
  }
}

=== FILE: composite.dfy ===
/** The composite codecs of XDR.CPP, each generic over the procedure of its
    elements: xdr_vector (section 3.11 of RFC 1014), xdr_array (section
    3.12), xdr_union (section 3.14), xdr_reference and xdr_pointer (optional
    data, section 3.18), and xdr_free. */
module Composite {
  import opened Wrappers
  import opened Wire
  import opened MemStream
  import opened Codec
  import opened Primitives
  import opened VarLen

  /** The wire images of a run of elements, one after the other. */
  function Wires<T>(vs: seq<T>, wire: T -> seq<byte>): seq<byte>
  {
    if vs == [] then [] else wire(vs[0]) + Wires(vs[1..], wire)
  }

  /** Elements whose images all have the same width n take n bytes each. */
  lemma {:induction false} WiresUniform<T>(vs: seq<T>, wire: T -> seq<byte>, n: nat)
    requires forall i :: 0 <= i < |vs| ==> |wire(vs[i])| == n
    ensures |Wires(vs, wire)| == n * |vs|
  {
    if vs != [] {
      assert |wire(vs[0])| == n;
      WiresUniform(vs[1..], wire, n);
    }
  }

  /** The loop shared by xdr_vector and xdr_array: the element procedure is
      called on each element in turn, and the first failure ends the loop.
      `done` counts the elements handled successfully, which is how far the
      loop moved its element pointer. */
  datatype Run<T> = Run(ok: bool, s: Stream, vs: seq<T>, done: nat)

  function Each<T>(s: Stream, vs: seq<T>, elem: Proc<T>): (r: Run<T>)
    ensures |r.vs| == |vs| && r.done <= |vs|
    ensures r.ok <==> r.done == |vs|
    ensures forall i :: r.done < i < |vs| ==> r.vs[i] == vs[i]
    decreases |vs|
  {
    if vs == [] then Run(true, s, [], 0)
    else
      var first := elem(s, vs[0]);
      if !first.ok then Run(false, first.s, [first.v] + vs[1..], 0)
      else
        var rest := Each(first.s, vs[1..], elem);
        Run(rest.ok, rest.s, [first.v] + rest.vs, 1 + rest.done)
  }

  /** When the first k elements are handled and the next one fails, the loop
      stops there: k elements are reported done, the stream is the one the
      failing call left, the failing element holds what that call left, and
      the elements after it are not visited. */
  lemma {:induction false} EachStopsAtFirstFailure<T>(s: Stream, vs: seq<T>, elem: Proc<T>, k: nat)
    requires k < |vs| && Each(s, vs[..k], elem).ok
    requires !elem(Each(s, vs[..k], elem).s, vs[k]).ok
    ensures var pre := Each(s, vs[..k], elem);
            var fail := elem(pre.s, vs[k]);
            Each(s, vs, elem) == Run(false, fail.s, pre.vs + [fail.v] + vs[k + 1..], k)
    decreases k
  {
    if k == 0 {
      assert vs[..0] == [];
    } else {
      var first := elem(s, vs[0]);
      var tail := vs[1..];
      assert vs[..k][0] == vs[0] && vs[..k][1..] == tail[..k - 1];
      var pre := Each(first.s, tail[..k - 1], elem);
      assert first.ok && Each(s, vs[..k], elem) == Run(true, pre.s, [first.v] + pre.vs, k);
      EachStopsAtFirstFailure(first.s, tail, elem, k - 1);
      var fail := elem(pre.s, vs[k]);
      assert tail[k - 1] == vs[k] && tail[k..] == vs[k + 1..];
      assert Each(first.s, tail, elem) == Run(false, fail.s, pre.vs + [fail.v] + vs[k + 1..], k - 1);
      assert [first.v] + (pre.vs + [fail.v] + vs[k + 1..]) == [first.v] + pre.vs + [fail.v] + vs[k + 1..];
    }
  }

  /** Conversely, a failed loop failed at element `done`: every element
      before it was handled, and that one was not. */
  lemma {:induction false} EachFailsAtDone<T>(s: Stream, vs: seq<T>, elem: Proc<T>)
    requires !Each(s, vs, elem).ok
    ensures var k := Each(s, vs, elem).done;
            && k < |vs| && Each(s, vs[..k], elem).ok
            && !elem(Each(s, vs[..k], elem).s, vs[k]).ok
    decreases |vs|
  {
    var first := elem(s, vs[0]);
    if first.ok {
      EachFailsAtDone(first.s, vs[1..], elem);
      var k := Each(s, vs, elem).done;
      assert vs[..k][0] == vs[0] && vs[..k][1..] == vs[1..][..k - 1];
      assert vs[1..][k - 1] == vs[k];
    } else {
      assert vs[..0] == [];
    }
  }

  /** Encoding every element appends their images one after the other and
      changes no element. */
  lemma {:induction false} EachEncodes<T(!new)>(s: Stream, vs: seq<T>, elem: Proc<T>, wire: T -> seq<byte>)
    requires EncodesAs(elem, wire) && s.op == Encode && s.offset <= |s.buf|
    requires Each(s, vs, elem).ok
    ensures Appended(s, Each(s, vs, elem).s, Wires(vs, wire))
    ensures Each(s, vs, elem).vs == vs
    decreases |vs|
  {
    if vs == [] {
      AppendedNothing(s);
    } else {
      var first := elem(s, vs[0]);
      var rest := Each(first.s, vs[1..], elem);
      EachEncodes(first.s, vs[1..], elem, wire);
      AppendedTrans(s, first.s, rest.s, wire(vs[0]), Wires(vs[1..], wire));
    }
  }

  /** With room for all their images, every element encodes: the loop runs
      to the end. */
  lemma {:induction false} EachSucceeds<T(!new)>(s: Stream, vs: seq<T>, elem: Proc<T>, wire: T -> seq<byte>)
    requires EncodesAs(elem, wire) && WritesWhenRoom(elem, wire) && s.op == Encode
    requires s.owned || s.offset + |Wires(vs, wire)| <= |s.buf|
    ensures Each(s, vs, elem).ok
    decreases |vs|
  {
    if vs != [] {
      var first := elem(s, vs[0]);
      assert first.ok && Appended(s, first.s, wire(vs[0]));
      EachSucceeds(first.s, vs[1..], elem, wire);
    }
  }

  /** Decoding a stream that holds the images of vs, into any run of as many
      elements, yields vs and consumes exactly those images. */
  lemma {:induction false} EachDecodes<T(!new)>(d: Stream, t: seq<T>, vs: seq<T>, elem: Proc<T>, wire: T -> seq<byte>)
    requires DecodesAs(elem, wire) && d.op == Decode && |t| == |vs|
    requires HoldsAt(d, Wires(vs, wire))
    ensures Each(d, t, elem) == Run(true, Advance(d, |Wires(vs, wire)|), vs, |vs|)
    decreases |vs|
  {
    if vs != [] {
      var w0 := wire(vs[0]);
      HoldsAtSplit(d, w0, Wires(vs[1..], wire));
      assert elem(d, t[0]) == Res(true, Advance(d, |w0|), vs[0]);
      EachDecodes(Advance(d, |w0|), t[1..], vs[1..], elem, wire);
      assert [vs[0]] + vs[1..] == vs;
    }
  }

  /** In free mode an element procedure that owns nothing leaves the whole
      run alone. */
  lemma {:induction false} EachFrees<T(!new)>(s: Stream, vs: seq<T>, elem: Proc<T>)
    requires FreesNothing(elem) && s.op == Free
    ensures Each(s, vs, elem) == Run(true, s, vs, |vs|)
    decreases |vs|
  {
    if vs != [] {
      EachFrees(s, vs[1..], elem);
      assert [vs[0]] + vs[1..] == vs;
    }
  }

  /** xdr_vector: a fixed number of elements (as many as the caller's array
      holds) and no count on the wire. A failing element ends the call; the
      elements after it are not visited. */
  function Vector<T>(s: Stream, vs: seq<T>, elem: Proc<T>): (r: Res<seq<T>>)
    ensures |r.v| == |vs|
    ensures r.ok <==> Each(s, vs, elem).done == |vs|
    ensures forall i :: Each(s, vs, elem).done < i < |vs| ==> r.v[i] == vs[i]
  {
    var run := Each(s, vs, elem);
    Res(run.ok, run.s, run.vs)
  }

  /** xdr_vector succeeds exactly when no element fails: a failure at
      element k, after k successes, fails the call with the stream that
      element left and the later elements untouched. */
  lemma VectorStopsAtFirstFailure<T>(s: Stream, vs: seq<T>, elem: Proc<T>, k: nat)
    requires k < |vs| && Each(s, vs[..k], elem).ok
    requires !elem(Each(s, vs[..k], elem).s, vs[k]).ok
    ensures var pre := Each(s, vs[..k], elem);
            var fail := elem(pre.s, vs[k]);
            Vector(s, vs, elem) == Res(false, fail.s, pre.vs + [fail.v] + vs[k + 1..])
  {
    EachStopsAtFirstFailure(s, vs, elem, k);
  }

  /** A vector encodes as the images of its elements, with no count, and
      decodes back from them into any array of the same length. */
  lemma VectorRoundTrip<T(!new)>(s: Stream, vs: seq<T>, d: Stream, t: seq<T>, elem: Proc<T>, wire: T -> seq<byte>)
    requires EncodesAs(elem, wire) && DecodesAs(elem, wire)
    requires s.op == Encode && s.offset <= |s.buf|
    requires d.op == Decode && HoldsAt(d, Wires(vs, wire)) && |t| == |vs|
    ensures Vector(s, vs, elem).ok ==> Appended(s, Vector(s, vs, elem).s, Wires(vs, wire)) && Vector(s, vs, elem).v == vs
    ensures Vector(d, t, elem) == Res(true, Advance(d, |Wires(vs, wire)|), vs)
  {
    if Vector(s, vs, elem).ok {
      EachEncodes(s, vs, elem, wire);
    }
    EachDecodes(d, t, vs, elem, wire);
  }

  /** The caller's CHAR **ppa of xdr_array: NULL, or a pointer to element
      `at` of an allocation holding `elems`. */
  datatype ArraySlot<T> = Null | At(elems: seq<T>, at: nat)

  /** The pointer and the count behind xdr_array's CHAR ** and UINT *. */
  datatype ArrayVal<T> = ArrayVal(slot: ArraySlot<T>, count: uint32)

  /** The slot holds n elements from its pointer on (a NULL slot only the
      empty run). */
  predicate Room<T>(slot: ArraySlot<T>, n: nat)
  {
    match slot
    case Null => n == 0
    case At(elems, at) => at + n <= |elems|
  }

  /** The element loop of xdr_array: runs from the slot's pointer over n
      elements, writes back what the procedure left in each, and advances
      the pointer once per element handled. */
  function Elements<T>(s: Stream, slot: ArraySlot<T>, n: uint32, elem: Proc<T>): (r: Res<ArrayVal<T>>)
    requires Room(slot, n)
    ensures r.v.count == n
    ensures slot.Null? ==> r == Res(true, s, ArrayVal(Null, n))
    ensures slot.At? ==>
              && r.v.slot.At? && |r.v.slot.elems| == |slot.elems|
              && slot.at <= r.v.slot.at <= slot.at + n
              && (r.ok <==> r.v.slot.at == slot.at + n)
              && r.v.slot.elems[..slot.at] == slot.elems[..slot.at]
              && r.v.slot.elems[slot.at + n..] == slot.elems[slot.at + n..]
    ensures slot.At? ==>
              var run := Each(s, slot.elems[slot.at..slot.at + n], elem);
              r.s == run.s && r.v.slot.at == slot.at + run.done
  {
    match slot
    case Null => Res(true, s, ArrayVal(Null, n))
    case At(elems, at) =>
      var run := Each(s, elems[at..at + n], elem);
      var after := elems[..at] + run.vs + elems[at + n..];
      assert after[..at] == elems[..at] && after[at + n..] == elems[at + n..];
      Res(run.ok, run.s, ArrayVal(At(after, at + run.done), n))
  }

  /** A failure at element k of xdr_array's loop, after k successes, leaves
      the caller's pointer k elements on, at the failing element, and the
      stream where that element's call left it. */
  lemma ElementsStopAtFirstFailure<T>(s: Stream, elems: seq<T>, at: nat, n: uint32, elem: Proc<T>, k: nat)
    requires at + n <= |elems|
    requires var run := elems[at..at + n];
             k < n as nat && Each(s, run[..k], elem).ok && !elem(Each(s, run[..k], elem).s, run[k]).ok
    ensures var r := Elements(s, At(elems, at), n, elem);
            && !r.ok && r.v.slot.at == at + k
            && r.s == elem(Each(s, elems[at..at + n][..k], elem).s, elems[at + k]).s
  {
    EachStopsAtFirstFailure(s, elems[at..at + n], elem, k);
  }

  /** A fresh allocation of n elements, each holding what malloc left. */
  function Blanks<T>(n: nat, blank: T): (b: seq<T>)
    ensures |b| == n
  {
    seq(n, _ => blank)
  }

  /** xdr_array: encode and decode below; free mode releases the allocation
      when the pointer stands at its start. A pointer advanced past
      elements, as encode and decode leave it, is not one malloc returned,
      and passing it to free is undefined; the model releases nothing then
      and leaves the slot. */
  function Array<T>(s: Stream, val: ArrayVal<T>, max: uint32, blank: T, elem: Proc<T>): (r: Res<ArrayVal<T>>)
    requires s.op == Encode && val.count <= max ==> Room(val.slot, val.count)
    requires s.op == Decode && val.slot.At? && s.offset + UnitSize <= |s.buf| && UnitAt(s) <= max ==> Room(val.slot, UnitAt(s))
    ensures s.op == Free ==> r.ok && r.s == s && r.v.count == val.count
    ensures s.op == Free && (val.slot.Null? || val.slot.at == 0) ==> r.v.slot.Null?
    ensures s.op == Free && val.slot.At? && val.slot.at > 0 ==> r.v == val
  {
    match s.op
    case Encode => ArrayEncode(s, val, max, elem)
    case Decode => ArrayDecode(s, val, max, blank, elem)
    case Free =>
      if val.slot.At? && val.slot.at > 0 then Res(true, s, val)
      else Res(true, s, ArrayVal(Null, val.count))
  }

  /** The encode half of xdr_array. A count above max is refused before
      anything is written; then the count is written (checked) and the
      elements encoded, with the caller's pointer advanced past every
      element handled. */
  function ArrayEncode<T>(s: Stream, val: ArrayVal<T>, max: uint32, elem: Proc<T>): (r: Res<ArrayVal<T>>)
    requires s.op == Encode
    requires val.count <= max ==> Room(val.slot, val.count)
    ensures val.count > max ==> r == Res(false, s, val)
    ensures !s.owned && s.offset + UnitSize > |s.buf| ==> r == Res(false, s, val)
    ensures r.v.count == val.count
    ensures r.ok && r.v.count > 0 ==>
              r.v.slot.At? && val.slot.At? && r.v.slot.at == val.slot.at + r.v.count
  {
    if val.count > max then Res(false, s, val)
    else
      var lenWrite := UInt(s, val.count);
      if !lenWrite.ok then Res(false, lenWrite.s, val)
      else Elements(lenWrite.s, val.slot, val.count, elem)
  }

  /** The decode half of xdr_array. The count is read (checked) and one
      above max refused before allocating; a NULL slot gets count elements
      (malloc'ed memory is indeterminate in the C library; `blank` stands for
      it); then the elements are decoded, with the pointer advanced past
      every element handled. */
  function ArrayDecode<T>(s: Stream, val: ArrayVal<T>, max: uint32, blank: T, elem: Proc<T>): (r: Res<ArrayVal<T>>)
    requires s.op == Decode
    requires val.slot.At? && s.offset + UnitSize <= |s.buf| && UnitAt(s) <= max ==> Room(val.slot, UnitAt(s))
    ensures s.offset + UnitSize > |s.buf| ==> r == Res(false, s, val)
    ensures s.offset + UnitSize <= |s.buf| ==> r.v.count == UnitAt(s)
    ensures s.offset + UnitSize <= |s.buf| && UnitAt(s) > max ==>
              r == Res(false, Advance(s, UnitSize), ArrayVal(val.slot, UnitAt(s)))
    ensures s.offset + UnitSize <= |s.buf| && UnitAt(s) <= max && val.slot.Null? ==>
              r.v.slot.At? && |r.v.slot.elems| == UnitAt(s)
    ensures r.ok && r.v.count > 0 ==>
              r.v.slot.At? && r.v.slot.at == (if val.slot.At? then val.slot.at else 0) + r.v.count
  {
    var lenRead := UInt(s, val.count);
    if !lenRead.ok then Res(false, lenRead.s, val)
    else if lenRead.v > max then Res(false, lenRead.s, ArrayVal(val.slot, lenRead.v))
    else
      var slot := if val.slot.Null? then At(Blanks(lenRead.v, blank), 0) else val.slot;
      Elements(lenRead.s, slot, lenRead.v, elem)
  }

  /** Encoding an array writes its count, then the images of the count
      elements from the caller's pointer on, and leaves the pointer past
      them. */
  lemma ArrayEncodes<T(!new)>(s: Stream, elems: seq<T>, at: nat, count: uint32, max: uint32, blank: T, elem: Proc<T>, wire: T -> seq<byte>)
    requires EncodesAs(elem, wire) && s.op == Encode && count <= max && at + count <= |elems|
    requires Array(s, ArrayVal(At(elems, at), count), max, blank, elem).ok
    ensures var r := Array(s, ArrayVal(At(elems, at), count), max, blank, elem);
            && Appended(s, r.s, Unit(count) + Wires(elems[at..at + count], wire))
            && r.v == ArrayVal(At(elems, at + count), count)
  {
    var lenWrite := UInt(s, count);
    assert Array(s, ArrayVal(At(elems, at), count), max, blank, elem) == Elements(lenWrite.s, At(elems, at), count, elem);
    ElementsEncode(lenWrite.s, elems, at, count, elem, wire);
    AppendedTrans(s, lenWrite.s, Elements(lenWrite.s, At(elems, at), count, elem).s, Unit(count), Wires(elems[at..at + count], wire));
  }

  /** The element loop of an encode that handles every element: the images
      of the count elements from the pointer on are appended, and the
      elements come back unchanged. */
  lemma ElementsEncode<T(!new)>(t: Stream, elems: seq<T>, at: nat, count: uint32, elem: Proc<T>, wire: T -> seq<byte>)
    requires EncodesAs(elem, wire) && t.op == Encode && t.offset <= |t.buf| && at + count <= |elems|
    requires Elements(t, At(elems, at), count, elem).ok
    ensures var r := Elements(t, At(elems, at), count, elem);
            && Appended(t, r.s, Wires(elems[at..at + count], wire))
            && r.v == ArrayVal(At(elems, at + count), count)
  {
    EachEncodes(t, elems[at..at + count], elem, wire);
    SplitThree(elems, at, at + count);
  }

  /** A sequence is its prefix, middle and suffix put back together. */
  lemma SplitThree<T>(xs: seq<T>, i: nat, j: nat)
    requires i <= j <= |xs|
    ensures xs[..i] + xs[i..j] + xs[j..] == xs
  {
  }

  /** Decoding the count and the images of vs into a NULL slot succeeds when
      the count is within max and yields vs in a blank allocation, but the
      pointer handed back stands past the last element: the base address of
      the allocation is lost to the caller. */
  lemma ArrayDecodes<T(!new)>(d: Stream, count: uint32, vs: seq<T>, max: uint32, blank: T, elem: Proc<T>, wire: T -> seq<byte>)
    requires DecodesAs(elem, wire) && d.op == Decode && |vs| <= max
    requires HoldsAt(d, Unit(|vs|) + Wires(vs, wire))
    ensures Array(d, ArrayVal(Null, count), max, blank, elem)
            == Res(true, Advance(d, UnitSize + |Wires(vs, wire)|), ArrayVal(At(vs, |vs|), |vs|))
  {
    HoldsAtSplit(d, Unit(|vs|), Wires(vs, wire));
    ArrayDecodeIntoNull(d, count, |vs|, max, blank, elem);
    ElementsDecode(d, Blanks(|vs|, blank), vs, elem, wire);
  }

  /** A decode into a NULL slot whose count is read and within max runs the
      element loop from the start of a blank allocation of count elements. */
  lemma ArrayDecodeIntoNull<T>(d: Stream, count: uint32, n: uint32, max: uint32, blank: T, elem: Proc<T>)
    requires d.op == Decode && HoldsAt(d, Unit(n)) && n <= max
    ensures Array(d, ArrayVal(Null, count), max, blank, elem)
            == Elements(Advance(d, UnitSize), At(Blanks(n, blank), 0), n, elem)
  {
    assert UInt(d, count) == Res(true, Advance(d, UnitSize), n) by {
      UIntRoundTrip();
    }
  }

  /** The element loop of a decode from the start of an allocation of as
      many elements as the stream holds images. */
  lemma ElementsDecode<T(!new)>(d: Stream, space: seq<T>, vs: seq<T>, elem: Proc<T>, wire: T -> seq<byte>)
    requires DecodesAs(elem, wire) && d.op == Decode && |space| == |vs| < 0x1_0000_0000
    requires HoldsAt(Advance(d, UnitSize), Wires(vs, wire))
    ensures Elements(Advance(d, UnitSize), At(space, 0), |vs|, elem)
            == Res(true, Advance(d, UnitSize + |Wires(vs, wire)|), ArrayVal(At(vs, |vs|), |vs|))
  {
    var t := Advance(d, UnitSize);
    assert space[0..|vs|] == space;
    EachDecodes(t, space, vs, elem, wire);
    assert space[..0] + vs + space[|vs|..] == vs;
    AdvanceTwice(d, UnitSize, |Wires(vs, wire)|);
  }

  /** Decoding the count and the images of vs into a caller's array of as
      many elements, from its start, yields vs there; only room for the
      count on the wire is needed, not for max elements. */
  lemma ArrayDecodesInto<T(!new)>(d: Stream, space: seq<T>, count: uint32, vs: seq<T>, max: uint32, blank: T, elem: Proc<T>, wire: T -> seq<byte>)
    requires DecodesAs(elem, wire) && d.op == Decode && |vs| <= max && |space| == |vs|
    requires HoldsAt(d, Unit(|vs|) + Wires(vs, wire))
    ensures HoldsAt(d, Unit(|vs|)) && UnitAt(d) == |vs|
    ensures Array(d, ArrayVal(At(space, 0), count), max, blank, elem)
            == Res(true, Advance(d, UnitSize + |Wires(vs, wire)|), ArrayVal(At(vs, |vs|), |vs|))
  {
    HoldsAtSplit(d, Unit(|vs|), Wires(vs, wire));
    assert UInt(d, count) == Res(true, Advance(d, UnitSize), |vs|) by {
      UIntRoundTrip();
    }
    ElementsDecode(d, space, vs, elem, wire);
  }

  /** The lost base address: after a decode into a NULL slot, free mode on
      the pointer handed back does not release the allocation. */
  lemma ArrayFreeAfterDecode<T(!new)>(d: Stream, f: Stream, count: uint32, vs: seq<T>, max: uint32, blank: T, elem: Proc<T>, wire: T -> seq<byte>)
    requires DecodesAs(elem, wire) && d.op == Decode && 0 < |vs| <= max
    requires HoldsAt(d, Unit(|vs|) + Wires(vs, wire)) && f.op == Free
    ensures var decoded := Array(d, ArrayVal(Null, count), max, blank, elem).v;
            Array(f, decoded, max, blank, elem) == Res(true, f, ArrayVal(At(vs, |vs|), |vs|))
  {
    ArrayDecodes(d, count, vs, max, blank, elem, wire);
  }

  /** An arm of xdr_union's table (xdr_discrim): a SHORT discriminant and
      the procedure of the arm. A discriminant of 0 ends the table. */
  datatype Arm<!T> = Arm(discr: int16, proc: Proc<T>)

  /** The INT discriminant and the union body behind xdr_union's pointers. */
  datatype UnionVal<T> = UnionVal(discr: int32, body: T)

  /** The table has its terminating entry. */
  ghost predicate Terminated<T>(choices: seq<Arm<T>>)
  {
    exists k :: 0 <= k < |choices| && choices[k].discr == 0
  }

  /** The scan of xdr_union from entry `from` on: the first entry that is the
      sentinel or whose discriminant equals d. */
  function Scan<T>(choices: seq<Arm<T>>, d: int, from: nat): (k: nat)
    requires from <= |choices|
    requires exists j :: from <= j < |choices| && choices[j].discr == 0
    ensures from <= k < |choices|
    ensures choices[k].discr == 0 || choices[k].discr == d
    ensures forall j :: from <= j < k ==> choices[j].discr != 0 && choices[j].discr != d
    decreases |choices| - from
  {
    if choices[from].discr == 0 || choices[from].discr == d then from
    else Scan(choices, d, from + 1)
  }

  /** xdr_union. The discriminant goes through xdr_int, whose result is not
      checked; the arm of the first entry before the sentinel whose
      discriminant matches handles the body; with none, the default arm
      does, and without a default the call fails. */
  function Union<T>(s: Stream, val: UnionVal<T>, choices: seq<Arm<T>>, default: Option<Proc<T>>): (r: Res<UnionVal<T>>)
    requires Terminated(choices)
    ensures r.v.discr == Int(s, val.discr).v
    ensures s.op == Encode ==> r.v.discr == val.discr
  {
    var discrim := Int(s, val.discr);
    var k := Scan(choices, discrim.v, 0);
    if choices[k].discr != 0 then
      var b := choices[k].proc(discrim.s, val.body);
      Res(b.ok, b.s, UnionVal(discrim.v, b.v))
    else if default.Some? then
      var b := default.value(discrim.s, val.body);
      Res(b.ok, b.s, UnionVal(discrim.v, b.v))
    else Res(false, discrim.s, UnionVal(discrim.v, val.body))
  }

  /** Entry j is the one the scan for d stops at with a match: it carries d
      and every entry before it is neither the sentinel nor d. */
  ghost predicate FirstMatch<T>(choices: seq<Arm<T>>, d: int, j: nat)
  {
    && j < |choices| && choices[j].discr == d && d != 0
    && forall i :: 0 <= i < j ==> choices[i].discr != 0 && choices[i].discr != d
  }

  /** The first matching entry's arm handles the body, after the
      discriminant. */
  lemma UnionRunsFirstMatch<T>(s: Stream, val: UnionVal<T>, choices: seq<Arm<T>>, default: Option<Proc<T>>, j: nat)
    requires Terminated(choices)
    requires FirstMatch(choices, Int(s, val.discr).v, j)
    ensures var discrim := Int(s, val.discr);
            var b := choices[j].proc(discrim.s, val.body);
            Union(s, val, choices, default) == Res(b.ok, b.s, UnionVal(discrim.v, b.v))
  {
    var k := Scan(choices, Int(s, val.discr).v, 0);
    assert !(k < j) && !(j < k);
  }

  /** With no matching entry before sentinel z, the default arm handles the
      body, and without one the call fails. A discriminant of 0 is always in
      this case, since it stops the scan at the first sentinel. */
  lemma UnionFallsToDefault<T>(s: Stream, val: UnionVal<T>, choices: seq<Arm<T>>, default: Option<Proc<T>>, z: nat)
    requires z < |choices| && choices[z].discr == 0
    requires forall i :: 0 <= i < z ==> choices[i].discr != Int(s, val.discr).v || Int(s, val.discr).v == 0
    ensures Terminated(choices)
    ensures var discrim := Int(s, val.discr);
            Union(s, val, choices, default)
            == if default.Some? then
                 var b := default.value(discrim.s, val.body);
                 Res(b.ok, b.s, UnionVal(discrim.v, b.v))
               else Res(false, discrim.s, UnionVal(discrim.v, val.body))
  {
  }

  /** A discriminant of 0 never reaches an arm: it goes to the default, and
      without one the call fails. */
  lemma UnionZeroNeverSelects<T>(s: Stream, val: UnionVal<T>, choices: seq<Arm<T>>)
    requires Terminated(choices) && Int(s, val.discr).v == 0
    ensures !Union(s, val, choices, None).ok
  {
  }

  /** A union whose discriminant selects an arm that encodes as wire is
      written as the discriminant's unit followed by the body's image. */
  lemma UnionEncodes<T(!new)>(s: Stream, val: UnionVal<T>, choices: seq<Arm<T>>, default: Option<Proc<T>>, j: nat, wire: T -> seq<byte>)
    requires Terminated(choices) && s.op == Encode && (s.owned || s.offset + UnitSize <= |s.buf|)
    requires FirstMatch(choices, val.discr, j) && EncodesAs(choices[j].proc, wire)
    requires Union(s, val, choices, default).ok
    ensures var r := Union(s, val, choices, default);
            Appended(s, r.s, IntWire(val.discr) + wire(val.body)) && r.v == val
  {
    var discrim := Int(s, val.discr);
    UnionRunsFirstMatch(s, val, choices, default, j);
    var b := choices[j].proc(discrim.s, val.body);
    AppendedTrans(s, discrim.s, b.s, IntWire(val.discr), wire(val.body));
  }

  /** A stream holding a discriminant that selects an arm and that arm's
      image of v decodes to that discriminant and v, whatever the target
      held before. */
  lemma UnionDecodes<T(!new)>(d: Stream, t: UnionVal<T>, choices: seq<Arm<T>>, default: Option<Proc<T>>, j: nat, discr: int32, v: T, wire: T -> seq<byte>)
    requires Terminated(choices) && d.op == Decode
    requires HoldsAt(d, IntWire(discr) + wire(v))
    requires FirstMatch(choices, discr, j) && DecodesAs(choices[j].proc, wire)
    ensures Union(d, t, choices, default) == Res(true, Advance(d, UnitSize + |wire(v)|), UnionVal(discr, v))
  {
    HoldsAtSplit(d, IntWire(discr), wire(v));
    IntRoundTrip();
    assert Int(d, t.discr) == Res(true, Advance(d, UnitSize), discr);
    UnionRunsFirstMatch(d, t, choices, default, j);
  }

  /** xdr_reference: a pointer to one element. Encode refuses NULL; decode
      allocates the element when the pointer is NULL (`blank` stands for the
      indeterminate malloc'ed memory); free mode releases it without calling
      the element procedure. */
  function Reference<T>(s: Stream, slot: Option<T>, blank: T, elem: Proc<T>): (r: Res<Option<T>>)
    ensures s.op == Free ==> r == Res(true, s, None)
    ensures s.op == Encode && slot.None? ==> r == Res(false, s, None)
    ensures s.op != Free && (s.op == Decode || slot.Some?) ==> r.v.Some?
    ensures s.op == Decode && slot.Some? ==>
              r.ok == elem(s, slot.value).ok && r.s == elem(s, slot.value).s && r.v == Some(elem(s, slot.value).v)
    ensures s.op == Decode && slot.None? ==>
              r.ok == elem(s, blank).ok && r.s == elem(s, blank).s && r.v == Some(elem(s, blank).v)
  {
    match s.op
    case Encode =>
      if slot.None? then Res(false, s, None)
      else
        var b := elem(s, slot.value);
        Res(b.ok, b.s, Some(b.v))
    case Decode =>
      var target := if slot.None? then blank else slot.value;
      var b := elem(s, target);
      Res(b.ok, b.s, Some(b.v))
    case Free => Res(true, s, None)
  }

  /** A reference encodes as its element's image and decodes back from it
      into a NULL or a non-NULL slot alike. */
  lemma ReferenceRoundTrip<T(!new)>(s: Stream, v: T, d: Stream, t: Option<T>, blank: T, elem: Proc<T>, wire: T -> seq<byte>)
    requires EncodesAs(elem, wire) && DecodesAs(elem, wire)
    requires s.op == Encode && d.op == Decode && HoldsAt(d, wire(v))
    ensures Reference(s, Some(v), blank, elem).ok ==>
              Appended(s, Reference(s, Some(v), blank, elem).s, wire(v)) && Reference(s, Some(v), blank, elem).v == Some(v)
    ensures Reference(d, t, blank, elem) == Res(true, Advance(d, |wire(v)|), Some(v))
  {
  }

  /** Decode allocates only for a NULL pointer: into a non-NULL one, what
      malloc would have left plays no part. */
  lemma ReferenceDecodeIgnoresBlank<T>(d: Stream, x: T, b1: T, b2: T, elem: Proc<T>)
    requires d.op == Decode
    ensures Reference(d, Some(x), b1, elem) == Reference(d, Some(x), b2, elem)
  {
  }

  /** The flag xdr_pointer sends in front of optional data. */
  function Flag<T>(slot: Option<T>): (f: int32)
    ensures f == 0 <==> slot.None?
  {
    if slot.Some? then 1 else 0
  }

  /** xdr_pointer: a flag unit through xdr_enum, whose result is not
      checked, then the reference when the flag is non-zero. A zero flag
      leaves the caller's pointer as it was, also on decode. */
  function Pointer<T>(s: Stream, slot: Option<T>, blank: T, elem: Proc<T>): (r: Res<Option<T>>)
    ensures s.op == Free ==> r == Res(true, s, None)
    ensures s.op == Encode && slot.None? ==> r.ok && r.v == None
    ensures s.op == Encode && slot.None? && (s.owned || s.offset + UnitSize <= |s.buf|) ==> Appended(s, r.s, IntWire(0))
    ensures s.op == Encode && slot.None? && !s.owned && s.offset + UnitSize > |s.buf| ==> r.s == s
  {
    var flag := Enum(s, Flag(slot));
    if flag.v != 0 then Reference(flag.s, slot, blank, elem)
    else Res(true, flag.s, slot)
  }

  /** Present data is written as the flag 1 followed by the element's image,
      and comes back from those bytes into any slot. */
  lemma PointerRoundTrip<T(!new)>(s: Stream, v: T, d: Stream, t: Option<T>, blank: T, elem: Proc<T>, wire: T -> seq<byte>)
    requires EncodesAs(elem, wire) && DecodesAs(elem, wire)
    requires s.op == Encode && (s.owned || s.offset + UnitSize <= |s.buf|)
    requires d.op == Decode && HoldsAt(d, IntWire(1) + wire(v))
    ensures var r := Pointer(s, Some(v), blank, elem);
            r.ok ==> Appended(s, r.s, IntWire(1) + wire(v)) && r.v == Some(v)
    ensures Pointer(d, t, blank, elem) == Res(true, Advance(d, UnitSize + |wire(v)|), Some(v))
  {
    var flag := Enum(s, 1);
    if Pointer(s, Some(v), blank, elem).ok {
      AppendedTrans(s, flag.s, Pointer(s, Some(v), blank, elem).s, IntWire(1), wire(v));
    }
    HoldsAtSplit(d, IntWire(1), wire(v));
    IntRoundTrip();
    assert Enum(d, Flag(t)) == Res(true, Advance(d, UnitSize), 1);
  }

  /** Decoding a 0 flag succeeds, consumes one unit and leaves whatever the
      caller's pointer held, a stale element included. */
  lemma PointerZeroFlagKeepsSlot<T>(d: Stream, t: Option<T>, blank: T, elem: Proc<T>)
    requires d.op == Decode && HoldsAt(d, IntWire(0))
    ensures Pointer(d, t, blank, elem) == Res(true, Advance(d, UnitSize), t)
  {
    IntRoundTrip();
    assert Enum(d, Flag(t)) == Res(true, Advance(d, UnitSize), 0);
  }

  /** The unchecked flag write: a NULL pointer encoded into a caller's
      buffer that is already full reports success and writes nothing. */
  lemma NullPointerIntoFullBuffer<T>(s: Stream, blank: T, elem: Proc<T>)
    requires s.op == Encode && !s.owned && s.offset == |s.buf|
    ensures Pointer(s, None, blank, elem) == Res(true, s, None)
  {
  }

  /** The procedures xdr_free recognises by address, and every other one. */
  datatype ProcKind = ArrayProc | BytesProc | PointerProc | ReferenceProc | StringProc | VectorProc | OtherProc

  /** xdr_free: releases the memory behind p when the procedure is one of
      the six it lists by address (xdr_vector among them, although it
      allocates nothing); for any other procedure, and for NULL, nothing
      happens. */
  function FreeBy<A>(kind: ProcKind, p: Option<A>): (r: Option<A>)
    ensures r.None? <==> p.None? || kind != OtherProc
    ensures r.Some? ==> r == p
  {
    if kind != OtherProc then None else p
  }

  /** xdr_free on a pointer agrees with running the procedure of its kind in
      free mode: both leave nothing behind. */
  lemma FreeByMatchesFreeMode<T>(s: Stream, str: Option<seq<byte>>, bytes: BytesVal, arr: ArrayVal<T>, ref: Option<T>, max: uint32, junk: uint32, blank: T, elem: Proc<T>)
    requires s.op == Free
    ensures FreeBy(StringProc, str) == String(s, str, max, junk).v
    ensures FreeBy(BytesProc, bytes.slot) == Bytes(s, bytes, max).v.slot
    ensures FreeBy(ReferenceProc, ref) == Reference(s, ref, blank, elem).v
    ensures FreeBy(PointerProc, ref) == Pointer(s, ref, blank, elem).v
    ensures arr.slot.Null? || arr.slot.at == 0 ==> Array(s, arr, max, blank, elem).v.slot.Null?
  {
    IntRoundTrip();
  }
}

=== FILE: memstream.dfy ===
/** The MEMORY backend of an XDR handle (XDRR with the XDR_MEM arm): a byte
    buffer whose length is ulSize, the cursor `offset`, the fAlloc ownership
    flag, and the XDR_OP mode the handle was created with. */
module MemStream {
  import opened Wrappers
  import opened Wire

  /** XDR_OP: what every codec called on the handle does. */
  datatype Op = Encode | Decode | Free

  datatype RawStream = RawStream(op: Op, buf: seq<byte>, offset: nat, owned: bool)

  /** A buffer the library owns starts at MEMSIZE_BASE bytes and only ever
      doubles, so it is never empty; this is what makes the doubling in
      Write terminate. */
  type Stream = s: RawStream | s.owned ==> |s.buf| > 0
    witness RawStream(Encode, [], 0, false)

  /** MEMSIZE_BASE, one page. */
  const MemSizeBase: nat := 4096

  /** xdrmem_create. A missing region or a zero size makes the library
      allocate (and own) a one-page buffer; otherwise the caller's region is
      bound and never grown. The freshly allocated page is indeterminate in
      the C library and zero here. */
  function Create(region: Option<seq<byte>>, op: Op): (s: Stream)
    ensures s.op == op && s.offset == 0
    ensures s.owned <==> region.None? || |region.value| == 0
    ensures s.owned ==> |s.buf| == MemSizeBase
    ensures !s.owned ==> s.buf == region.value
  {
    if region.None? || |region.value| == 0 then RawStream(op, Zeros(MemSizeBase), 0, true)
    else RawStream(op, region.value, 0, false)
  }

  /** xdr_getpos */
  function GetPos(s: Stream): nat
  {
    s.offset
  }

  /** xdr_setpos on a memory stream: always TRUE, and the new offset is not
      checked against the buffer size. */
  function SetPos(s: Stream, pos: uint32): (r: (bool, Stream))
    ensures r.0
    ensures GetPos(r.1) == pos
    ensures r.1.buf == s.buf && r.1.owned == s.owned && r.1.op == s.op
  {
    (true, s.(offset := pos))
  }

  /** xdr_destroy on a memory stream: an owned buffer is released (None); a
      caller's region stays with the caller, holding what was written to it. */
  function Destroy(s: Stream): (region: Option<seq<byte>>)
    ensures region.None? <==> s.owned
    ensures region.Some? ==> region.value == s.buf
  {
    if s.owned then None else Some(s.buf)
  }

  function Pow2(k: nat): (p: nat)
    ensures p >= 1
  {
    if k == 0 then 1 else 2 * Pow2(k - 1)
  }

  /** The buffer size the `goto again` loop of xdr_write ends with: size
      doubled until need fits, or size itself when it already does. */
  function Grow(size: nat, need: nat): (r: nat)
    requires size > 0
    ensures need <= r && size <= r
    ensures r == size || r < 2 * need
    ensures exists k: nat :: r == size * Pow2(k)
    decreases need - size
  {
    if need <= size then
      assert size == size * Pow2(0);
      size
    else
      var r := Grow(2 * size, need);
      var k: nat :| r == 2 * size * Pow2(k);
      DoublePow2(size, k);
      r
  }

  /** Doubling size * 2^k is size * 2^(k+1). */
  lemma DoublePow2(size: nat, k: nat)
    ensures 2 * size * Pow2(k) == size * Pow2(k + 1)
  {
    assert Pow2(k + 1) == 2 * Pow2(k);
  }

  datatype Chunk = Chunk(ok: bool, s: Stream, data: seq<byte>)

  /** The n bytes at the cursor, when they are all inside the buffer. */
  ghost predicate HoldsAt(s: Stream, w: seq<byte>)
  {
    s.offset + |w| <= |s.buf| && s.buf[s.offset..s.offset + |w|] == w
  }

  /** The stream with its cursor moved n bytes on and nothing else changed. */
  function Advance(s: Stream, n: nat): (t: Stream)
    ensures t.buf == s.buf && t.owned == s.owned && t.op == s.op
    ensures t.offset == s.offset + n
  {
    s.(offset := s.offset + n)
  }

  /** Two moves of the cursor are one move by their sum. */
  lemma AdvanceTwice(s: Stream, m: nat, n: nat)
    ensures Advance(Advance(s, m), n) == Advance(s, m + n)
  {
  }

  /** xdr_read, MEMORY branch. */
  function Read(s: Stream, n: nat): (r: Chunk)
    ensures r.ok <==> s.offset + n <= |s.buf|
    ensures r.ok ==> |r.data| == n && HoldsAt(s, r.data) && r.s == Advance(s, n)
    ensures !r.ok ==> r.s == s
  {
    if s.offset + n > |s.buf| then Chunk(false, s, [])
    else Chunk(true, Advance(s, n), s.buf[s.offset..s.offset + n])
  }

  /** How many bytes of the buffer lie before the cursor (the cursor may
      stand past the end after xdr_setpos). */
  function Before(s: Stream): (n: nat)
    ensures n <= s.offset && n <= |s.buf|
    ensures n == s.offset || n == |s.buf|
  {
    if s.offset <= |s.buf| then s.offset else |s.buf|
  }

  /** t is s after w was written at s's cursor: the cursor moved past w, w is
      in the buffer there, no byte of the buffer before the old cursor
      changed, and the buffer did not shrink. */
  ghost predicate Appended(s: Stream, t: Stream, w: seq<byte>)
  {
    && t.op == s.op
    && t.owned == s.owned
    && |s.buf| <= |t.buf|
    && t.offset == s.offset + |w|
    && t.offset <= |t.buf|
    && t.buf[s.offset..t.offset] == w
    && t.buf[..Before(s)] == s.buf[..Before(s)]
  }

  datatype Outcome = Outcome(ok: bool, s: Stream)

  /** xdr_write, MEMORY branch. When the data does not fit, an owned buffer
      doubles until it does (the new bytes are indeterminate in the C library
      and zero here); a caller's region makes the write fail. */
  function Write(s: Stream, data: seq<byte>): (r: Outcome)
    ensures r.ok <==> s.owned || s.offset + |data| <= |s.buf|
    ensures !r.ok ==> r.s == s
    ensures r.ok ==> Appended(s, r.s, data)
    ensures r.ok ==> |s.buf| <= |r.s.buf|
    ensures r.ok ==> forall i :: s.offset + |data| <= i < |s.buf| ==> r.s.buf[i] == s.buf[i]
    ensures r.ok && s.offset + |data| <= |s.buf| ==> |r.s.buf| == |s.buf|
    ensures r.ok && s.offset + |data| > |s.buf| ==> |r.s.buf| == Grow(|s.buf|, s.offset + |data|)
  {
    var need := s.offset + |data|;
    if need > |s.buf| && !s.owned then Outcome(false, s)
    else
      var room := if need > |s.buf| then s.buf + Zeros(Grow(|s.buf|, need) - |s.buf|) else s.buf;
      Outcome(true, RawStream(s.op, room[..s.offset] + data + room[need..], need, s.owned))
  }

  /** Growth never shrinks the buffer and never moves bytes that were already
      in it: a successful write changes only the bytes it was asked to write. */
  lemma WriteKeepsOtherBytes(s: Stream, data: seq<byte>, i: nat)
    requires Write(s, data).ok
    requires i < |s.buf| && !(s.offset <= i < s.offset + |data|)
    ensures i < |Write(s, data).s.buf| && Write(s, data).s.buf[i] == s.buf[i]
  {
    var w := Write(s, data);
    var t := w.s;
    assert Appended(s, t, data) && |s.buf| <= |t.buf|;
    if i < s.offset {
      assert t.buf[i] == t.buf[..Before(s)][i];
    }
  }

  /** Repositioning to where a write started and reading as many bytes back
      gives exactly the bytes written. */
  lemma RewindReadsBackWrite(s: Stream, data: seq<byte>)
    requires Write(s, data).ok && s.offset < 0x1_0000_0000
    ensures var rewound := SetPos(Write(s, data).s, s.offset);
            var back := Read(rewound.1, |data|);
            rewound.0 && back.ok && back.data == data
  {
  }

  /** A buffer the library owns always accepts a write, growing instead of
      failing. */
  lemma OwnedWriteNeverFails(s: Stream, data: seq<byte>)
    requires s.owned
    ensures Write(s, data).ok
    ensures |s.buf| <= |Write(s, data).s.buf|
  {
  }

  /** Bytes appended one after the other are appended together. */
  lemma AppendedTrans(s: Stream, t: Stream, u: Stream, w1: seq<byte>, w2: seq<byte>)
    requires Appended(s, t, w1) && Appended(t, u, w2)
    ensures Appended(s, u, w1 + w2)
  {
    assert u.buf[..t.offset] == t.buf[..t.offset];
    assert u.buf[s.offset..t.offset] == t.buf[s.offset..t.offset] by {
      assert u.buf[s.offset..t.offset] == u.buf[..t.offset][s.offset..];
      assert t.buf[s.offset..t.offset] == t.buf[..t.offset][s.offset..];
    }
    assert u.buf[s.offset..u.offset] == u.buf[s.offset..t.offset] + u.buf[t.offset..u.offset];
    assert u.buf[..Before(s)] == u.buf[..t.offset][..Before(s)];
    assert t.buf[..Before(s)] == t.buf[..t.offset][..Before(s)];
  }

  /** Nothing appended leaves the stream where it was. */
  lemma AppendedNothing(s: Stream)
    requires s.offset <= |s.buf|
    ensures Appended(s, s, [])
  {
  }

  /** Bytes that are at the cursor one after the other can be read one after
      the other. */
  lemma HoldsAtSplit(d: Stream, w1: seq<byte>, w2: seq<byte>)
    requires HoldsAt(d, w1 + w2)
    ensures HoldsAt(d, w1) && HoldsAt(Advance(d, |w1|), w2)
  {
    var all := d.buf[d.offset..d.offset + |w1 + w2|];
    assert d.buf[d.offset..d.offset + |w1|] == all[..|w1|];
    assert d.buf[d.offset + |w1|..d.offset + |w1| + |w2|] == all[|w1|..];
  }

  /** What an encoding stream appended from offset 0 is what a decoding stream
      over the same bytes finds at offset 0. */
  lemma EncodedBytesDecode(e0: Stream, e: Stream, w: seq<byte>, region: seq<byte>)
    requires e0.offset == 0 && Appended(e0, e, w)
    requires |region| > 0 && region == e.buf
    ensures HoldsAt(Create(Some(region), Decode), w)
  {
  }
}

=== FILE: primitives.dfy ===
/** The one-unit codecs of XDR.CPP: xdr_char, xdr_short, xdr_int and their
    aliases, and xdr_void (sections 3.1 to 3.4 and 3.15 of RFC 1014). Each
    value occupies one 4-byte unit, most significant byte first. */
module Primitives {
  import opened Wire
  import opened MemStream
  import opened Codec

  /** The unit an INT is sent as. */
  function IntWire(v: int32): seq<byte>
  {
    Unit(ToBits(v))
  }

  /** The unit a CHAR is sent as: three zero bytes, then the character. */
  function CharWire(c: byte): seq<byte>
  {
    [0, 0, 0, c]
  }

  /** The unit a SHORT is sent as when the unit is zero-filled first, as
      xdr_char does: two zero bytes, then the 16 bits high byte first. */
  function ShortWire(v: int16): seq<byte>
  {
    var w := ToBits16(v);
    [0, 0, w / 0x100, w % 0x100]
  }

  /** xdr_int. */
  function Int(s: Stream, v: int32): (r: Res<int32>)
    ensures s.op == Encode ==> r.v == v && (r.ok <==> s.owned || s.offset + UnitSize <= |s.buf|)
    ensures s.op == Encode && r.ok ==> Appended(s, r.s, IntWire(v))
    ensures s.op == Decode ==> (r.ok <==> s.offset + UnitSize <= |s.buf|)
    ensures s.op == Decode && r.ok ==> r.s == Advance(s, UnitSize) && HoldsAt(s, IntWire(r.v))
    ensures !r.ok ==> r == Res(false, s, v)
    ensures s.op == Free ==> r == Res(true, s, v)
  {
    match s.op
    case Encode =>
      var w := Write(s, Unit(ToBits(v)));
      Res(w.ok, w.s, v)
    case Decode =>
      var c := Read(s, UnitSize);
      if !c.ok then Res(false, s, v)
      else
        UnitOfUnitValue(c.data);
        Res(true, c.s, FromBits(UnitValue(c.data)))
    case Free => Res(true, s, v)
  }

  /** The value of the unit at the cursor. */
  function UnitAt(s: Stream): uint32
    requires s.offset + UnitSize <= |s.buf|
  {
    UnitValue(s.buf[s.offset..s.offset + UnitSize])
  }

  /** xdr_u_int: xdr_int on the same 32 bits. */
  function UInt(s: Stream, v: uint32): (r: Res<uint32>)
    ensures s.op == Encode && r.ok ==> r.v == v && Appended(s, r.s, Unit(v))
    ensures s.op == Free ==> r == Res(true, s, v)
    ensures s.op == Decode && r.ok ==> r.s == Advance(s, UnitSize) && HoldsAt(s, Unit(r.v)) && r.v == UnitAt(s)
    ensures r.ok <==> Int(s, FromBits(v)).ok
    ensures !r.ok ==> r == Res(false, s, v)
  {
    var r := Int(s, FromBits(v));
    if s.op == Decode && r.ok then
      assert Unit(ToBits(r.v)) == s.buf[s.offset..s.offset + UnitSize];
      Res(r.ok, r.s, ToBits(r.v))
    else Res(r.ok, r.s, ToBits(r.v))
  }

  /** xdr_long: LONG is 32 bits wide, and the call is xdr_int. */
  function Long(s: Stream, v: int32): Res<int32>
  {
    Int(s, v)
  }

  /** xdr_u_long: ULONG is 32 bits wide, and the call is xdr_int. */
  function ULong(s: Stream, v: uint32): Res<uint32>
  {
    UInt(s, v)
  }

  /** xdr_enum: an enumerant is an INT. */
  function Enum(s: Stream, v: int32): Res<int32>
  {
    Int(s, v)
  }

  /** xdr_void: succeeds and touches nothing, whatever the mode. */
  function Void<T>(s: Stream, v: T): (r: Res<T>)
    ensures r.ok && r.s == s && r.v == v
  {
    Res(true, s, v)
  }

  /** xdr_char: the unit is zeroed, the character goes into its last byte;
      decoding takes the last byte and ignores the other three. */
  function Char(s: Stream, c: byte): (r: Res<byte>)
    ensures s.op == Encode ==> r.v == c && (r.ok <==> s.owned || s.offset + UnitSize <= |s.buf|)
    ensures s.op == Encode && r.ok ==> Appended(s, r.s, CharWire(c))
    ensures s.op == Decode ==> (r.ok <==> s.offset + UnitSize <= |s.buf|)
    ensures s.op == Decode && r.ok ==> r.s == Advance(s, UnitSize) && r.v == s.buf[s.offset + 3]
    ensures !r.ok ==> r == Res(false, s, c)
    ensures s.op == Free ==> r == Res(true, s, c)
  {
    match s.op
    case Encode =>
      var w := Write(s, [0, 0, 0, c]);
      Res(w.ok, w.s, c)
    case Decode =>
      var u := Read(s, UnitSize);
      if !u.ok then Res(false, s, c) else Res(true, u.s, u.data[3])
    case Free => Res(true, s, c)
  }

  /** xdr_short with its unit zero-filled first, as xdr_char does, so that
      the unused high bytes of the narrower type are zero on the wire.
      Decoding takes the two low bytes of the unit. */
  function Short(s: Stream, v: int16): (r: Res<int16>)
    ensures s.op == Encode ==> r.v == v && (r.ok <==> s.owned || s.offset + UnitSize <= |s.buf|)
    ensures s.op == Encode && r.ok ==> Appended(s, r.s, ShortWire(v))
    ensures s.op == Decode ==> (r.ok <==> s.offset + UnitSize <= |s.buf|)
    ensures s.op == Decode && r.ok ==> r.s == Advance(s, UnitSize) && ShortWire(r.v)[2..] == s.buf[s.offset + 2..s.offset + 4]
    ensures !r.ok ==> r == Res(false, s, v)
    ensures s.op == Free ==> r == Res(true, s, v)
  {
    match s.op
    case Encode =>
      var w := Write(s, ShortWire(v));
      Res(w.ok, w.s, v)
    case Decode => ShortDecode(s, v)
    case Free => Res(true, s, v)
  }

  /** The decode half of xdr_short, shared by both versions of the encoder. */
  function ShortDecode(s: Stream, v: int16): (r: Res<int16>)
    ensures r.ok <==> s.offset + UnitSize <= |s.buf|
    ensures r.ok ==> r.s == Advance(s, UnitSize) && ShortWire(r.v)[2..] == s.buf[s.offset + 2..s.offset + 4]
    ensures !r.ok ==> r == Res(false, s, v)
  {
    var u := Read(s, UnitSize);
    if !u.ok then Res(false, s, v)
    else
      var hi: int, lo: int := u.data[2], u.data[3];
      var w := hi * 0x100 + lo;
      Res(true, u.s, FromBits16(w))
  }

  /** xdr_short as written: the two high bytes of the unit are never
      initialised, so whatever the stack held there (stale) goes onto the
      wire. */
  function ShortAsWritten(s: Stream, v: int16, stale: seq<byte>): (r: Res<int16>)
    requires |stale| == 2
    ensures s.op == Encode && r.ok ==> Appended(s, r.s, stale + ShortWire(v)[2..])
    ensures s.op == Decode ==> r == ShortDecode(s, v)
  {
    match s.op
    case Encode =>
      var w := Write(s, stale + ShortWire(v)[2..]);
      Res(w.ok, w.s, v)
    case Decode => ShortDecode(s, v)
    case Free => Res(true, s, v)
  }

  /** The unit a USHORT is sent as: that of the SHORT with the same bits. */
  function UShortWire(v: uint16): seq<byte>
  {
    ShortWire(FromBits16(v))
  }

  /** xdr_u_short: xdr_short on the same 16 bits. */
  function UShort(s: Stream, v: uint16): (r: Res<uint16>)
    ensures r.ok <==> Short(s, FromBits16(v)).ok
    ensures s.op == Encode && r.ok ==> r.v == v && Appended(s, r.s, UShortWire(v))
    ensures s.op == Decode ==> (r.ok <==> s.offset + UnitSize <= |s.buf|)
    ensures s.op == Decode && r.ok ==> r.s == Advance(s, UnitSize) && UShortWire(r.v)[2..] == s.buf[s.offset + 2..s.offset + 4]
    ensures !r.ok ==> r == Res(false, s, v)
    ensures s.op == Free ==> r == Res(true, s, v)
  {
    var r := Short(s, FromBits16(v));
    Res(r.ok, r.s, ToBits16(r.v))
  }

  /** xdr_int, xdr_long and xdr_enum round-trip every INT through one unit. */
  lemma IntRoundTrip()
    ensures EncodesAs(Int, IntWire) && DecodesAs(Int, IntWire) && FreesNothing(Int)
    ensures EncodesAs(Long, IntWire) && DecodesAs(Long, IntWire)
    ensures EncodesAs(Enum, IntWire) && DecodesAs(Enum, IntWire)
    ensures FreesNothing(Long) && FreesNothing(Enum)
    ensures WritesWhenRoom(Int, IntWire) && WritesWhenRoom(Enum, IntWire)
  {
    forall d: Stream, t: int32, v: int32 | d.op == Decode && HoldsAt(d, IntWire(v))
      ensures Int(d, t) == Res(true, Advance(d, |IntWire(v)|), v)
    {
      var r := Int(d, t);
      assert IntWire(r.v) == d.buf[d.offset..d.offset + UnitSize] == IntWire(v);
      assert UnitValue(IntWire(r.v)) == UnitValue(IntWire(v));
    }
  }

  /** xdr_u_int and xdr_u_long round-trip every UINT through one unit. */
  lemma UIntRoundTrip()
    ensures EncodesAs(UInt, Unit) && DecodesAs(UInt, Unit)
    ensures EncodesAs(ULong, Unit) && DecodesAs(ULong, Unit)
    ensures WritesWhenRoom(UInt, Unit) && FreesNothing(UInt)
  {
    forall d: Stream, t: uint32, v: uint32 | d.op == Decode && HoldsAt(d, Unit(v))
      ensures UInt(d, t) == Res(true, Advance(d, |Unit(v)|), v)
    {
      var r := UInt(d, t);
      assert Unit(r.v) == Unit(v);
      assert UnitValue(Unit(r.v)) == UnitValue(Unit(v));
    }
  }

  /** xdr_char round-trips every CHAR through one unit. */
  lemma CharRoundTrip()
    ensures EncodesAs(Char, CharWire) && DecodesAs(Char, CharWire) && FreesNothing(Char)
    ensures WritesWhenRoom(Char, CharWire)
  {
    forall d: Stream, t: byte, v: byte | d.op == Decode && HoldsAt(d, CharWire(v))
      ensures Char(d, t) == Res(true, Advance(d, |CharWire(v)|), v)
    {
      assert d.buf[d.offset..d.offset + 4][3] == d.buf[d.offset + 3];
    }
  }

  /** The zero-filled xdr_short round-trips every SHORT through one unit. */
  lemma ShortRoundTrip()
    ensures EncodesAs(Short, ShortWire) && DecodesAs(Short, ShortWire) && FreesNothing(Short)
    ensures WritesWhenRoom(Short, ShortWire)
  {
    forall d: Stream, t: int16, v: int16 | d.op == Decode && HoldsAt(d, ShortWire(v))
      ensures Short(d, t) == Res(true, Advance(d, |ShortWire(v)|), v)
    {
      var r := Short(d, t);
      assert ShortWire(r.v)[2..] == d.buf[d.offset..d.offset + 4][2..] == ShortWire(v)[2..];
      ShortBytesDetermineValue(r.v, v);
    }
  }

  /** xdr_u_short round-trips every USHORT through the unit of the SHORT
      with the same bits. */
  lemma UShortRoundTrip()
    ensures EncodesAs(UShort, UShortWire) && DecodesAs(UShort, UShortWire) && FreesNothing(UShort)
    ensures WritesWhenRoom(UShort, UShortWire)
  {
    forall d: Stream, t: uint16, v: uint16 | d.op == Decode && HoldsAt(d, UShortWire(v))
      ensures UShort(d, t) == Res(true, Advance(d, |UShortWire(v)|), v)
    {
      var r := UShort(d, t);
      assert UShortWire(r.v)[2..] == d.buf[d.offset..d.offset + 4][2..] == UShortWire(v)[2..];
      ShortBytesDetermineValue(FromBits16(r.v), FromBits16(v));
    }
  }

  /** The two low bytes of a SHORT's unit determine the SHORT. */
  lemma ShortBytesDetermineValue(a: int16, b: int16)
    requires ShortWire(a)[2..] == ShortWire(b)[2..]
    ensures a == b
  {
    var wa, wb := ToBits16(a), ToBits16(b);
    assert ShortWire(a)[2] == ShortWire(b)[2] && ShortWire(a)[3] == ShortWire(b)[3];
    assert wa == wa / 0x100 * 0x100 + wa % 0x100;
    assert wb == wb / 0x100 * 0x100 + wb % 0x100;
    BitsRoundTrip(0, a);
    BitsRoundTrip(0, b);
  }

  /** xdr_short as written puts the stale stack bytes on the wire: with any
      non-zero stale byte its unit is not the zero-filled one, yet it still
      decodes to the same SHORT, because decoding ignores the high bytes. */
  lemma ShortAsWrittenLeaksStaleBytes(s: Stream, v: int16, stale: seq<byte>)
    requires s.op == Encode && |stale| == 2 && stale != [0, 0]
    requires ShortAsWritten(s, v, stale).ok
    ensures var t := ShortAsWritten(s, v, stale).s;
            t.buf[s.offset..t.offset] != ShortWire(v)
    ensures var t := ShortAsWritten(s, v, stale).s;
            ShortDecode(t.(op := Decode, offset := s.offset), 0).v == v
  {
    var t := ShortAsWritten(s, v, stale).s;
    assert t.buf[s.offset..t.offset][..2] == stale;
    var d := t.(op := Decode, offset := s.offset);
    var r := ShortDecode(d, 0);
    assert d.buf[d.offset + 2..d.offset + 4] == t.buf[s.offset..t.offset][2..];
    ShortBytesDetermineValue(r.v, v);
  }
}

=== FILE: scenario.dfy ===
/** The exchange of xdrtest.cpp on a memory stream: an INT, a string, a
    vector of four INTs and a discriminated union, written into the caller's
    4096-byte region and read back from it. */
module Scenario {
  import opened Wrappers
  import opened Wire
  import opened MemStream
  import opened Codec
  import opened Primitives
  import opened VarLen
  import opened Composite

  /** The storage of the test's C union, one member per arm type. The C
      members overlay one another; here they are independent fields. */
  datatype Payload = Payload(word: int32, character: byte)

  /** xdr_int on the union's INT members; the CHAR member is not touched. */
  function OnWord(s: Stream, p: Payload): (r: Res<Payload>)
    ensures r.v.character == p.character
    ensures s.op != Decode ==> r.v == p
  {
    var w := Int(s, p.word);
    Res(w.ok, w.s, p.(word := w.v))
  }

  /** xdr_char on the union's CHAR member; the INT members are not touched. */
  function OnCharacter(s: Stream, p: Payload): (r: Res<Payload>)
    ensures r.v.word == p.word
    ensures s.op != Decode ==> r.v == p
  {
    var c := Char(s, p.character);
    Res(c.ok, c.s, p.(character := c.v))
  }

  /** The unit the INT arms send. */
  function WordWire(p: Payload): seq<byte>
  {
    IntWire(p.word)
  }

  /** The unit the CHARACTER arm sends. */
  function CharacterWire(p: Payload): seq<byte>
  {
    CharWire(p.character)
  }

  /** The arms of filter_dir: each appends its member's unit, succeeds with
      room, does nothing in free mode, and decodes its unit into its own
      member, leaving the other as the target held it. */
  lemma ArmsRoundTrip()
    ensures EncodesAs(OnWord, WordWire) && WritesWhenRoom(OnWord, WordWire) && FreesNothing(OnWord)
    ensures EncodesAs(OnCharacter, CharacterWire) && WritesWhenRoom(OnCharacter, CharacterWire) && FreesNothing(OnCharacter)
    ensures forall d: Stream, t: Payload, w: int32 :: d.op == Decode && HoldsAt(d, IntWire(w)) ==>
              OnWord(d, t) == Res(true, Advance(d, UnitSize), t.(word := w))
    ensures forall d: Stream, t: Payload, c: byte :: d.op == Decode && HoldsAt(d, CharWire(c)) ==>
              OnCharacter(d, t) == Res(true, Advance(d, UnitSize), t.(character := c))
  {
    IntRoundTrip();
    CharRoundTrip();
  }

  /** The procedure of the terminating entry; the scan never calls it. */
  function NoArm(s: Stream, p: Payload): (r: Res<Payload>)
    ensures r == Res(false, s, p)
  {
    Res(false, s, p)
  }

  const Error: int16 := 1
  const Integer: int16 := 2
  const Character: int16 := 3

  /** filter_dir: ERROR and INTEGER through xdr_int, CHARACTER through
      xdr_char, then END. */
  const FilterDir: seq<Arm<Payload>> :=
    [Arm(Error, OnWord), Arm(Integer, OnWord), Arm(Character, OnCharacter), Arm(0, NoArm)]

  /** The characters of "test string". */
  const TestString: seq<byte> := [116, 101, 115, 116, 32, 115, 116, 114, 105, 110, 103]

  const Ints: seq<int32> := [100, 101, 102, 103]

  /** The test's variables: i, str, aint, disc and test_union. */
  datatype Values = Values(i: int32, str: Option<seq<byte>>, aint: seq<int32>, disc: int32, body: Payload)

  /** The first two calls of one direction of the test: xdr_int on i,
      then xdr_string on str with a maximum of 256. */
  function Front(s: Stream, v: Values): (r: Res<Values>)
    requires v.str.Some? ==> 0 in v.str.value
    ensures r.v.aint == v.aint && r.v.disc == v.disc && r.v.body == v.body
    ensures s.op == Free ==> r.v.str.None?
  {
    var i := Int(s, v.i);
    var str := String(i.s, v.str, 256, 0);
    Res(i.ok && str.ok, str.s, v.(i := i.v, str := str.v))
  }

  /** The last two calls: xdr_vector on aint with xdr_int, then xdr_union
      on disc and test_union through filter_dir with no default. */
  function Back(s: Stream, v: Values): (r: Res<Values>)
    ensures r.v.i == v.i && r.v.str == v.str && |r.v.aint| == |v.aint|
  {
    assert FilterDir[3].discr == 0;
    var aint := Vector(s, v.aint, Int);
    var u := Union(aint.s, UnionVal(v.disc, v.body), FilterDir, None);
    Res(aint.ok && u.ok, u.s, v.(aint := aint.v, disc := u.v.discr, body := u.v.body))
  }

  /** The four calls of one direction of the test, in order; the test does
      not look at their results, and the model reports whether all four
      succeeded. */
  function Exchange(s: Stream, v: Values): (r: Res<Values>)
    requires v.str.Some? ==> 0 in v.str.value
    ensures |r.v.aint| == |v.aint|
    ensures s.op == Free ==> r.v.str.None?
  {
    var f := Front(s, v);
    var b := Back(f.s, f.v);
    Res(f.ok && b.ok, b.s, b.v)
  }

  /** The values the test encodes; `rest` is what the 32-byte string buffer
      holds after the terminator. */
  function Sent(rest: seq<byte>): Values
  {
    Values(9, Some(TestString + [0] + rest), Ints, Character, Payload(0, 'c' as byte))
  }

  /** The variables after the test overwrites them, before decoding. */
  function Invalidated(rest: seq<byte>): Values
  {
    Values(0, Some(seq(18, _ => 'x' as byte) + [0] + rest), [0, 0, 0, 0], Character, Payload(0, 0))
  }

  /** The values the exchange handles as the test sets them up: a
      terminated string of at most 256 characters and the CHARACTER arm. */
  ghost predicate Exchangeable(v: Values)
  {
    v.str.Some? && 0 in v.str.value && |CStr(v.str.value)| <= 256 && v.disc == Character as int32
  }

  /** What the encoding half writes for v. */
  function ImageOf(v: Values): (w: seq<byte>)
    requires Exchangeable(v) && |v.aint| < 0x1000_0000
  {
    IntWire(v.i) + CountedWire(CStr(v.str.value)) + Wires(v.aint, IntWire) + (IntWire(Character) + CharWire(v.body.character))
  }

  /** The image is four units for i, the string's length, the discriminant
      and the character, the string's padded characters, and a unit per
      INT of the vector. */
  lemma ImageLength(v: Values)
    requires Exchangeable(v) && |v.aint| < 0x1000_0000
    ensures |ImageOf(v)| == 16 + RndUp(|CStr(v.str.value)|) + 4 * |v.aint|
  {
    WiresUniform(v.aint, IntWire, 4);
  }

  /** The string call of the encoding half, with room for its image. */
  lemma EncodeString(s: Stream, b: seq<byte>)
    requires s.op == Encode && 0 in b && |CStr(b)| <= 256
    requires s.offset + UnitSize + RndUp(|CStr(b)|) <= |s.buf|
    ensures var r := String(s, Some(b), 256, 0);
            r.ok && Appended(s, r.s, CountedWire(CStr(b)))
  {
  }

  /** The vector call of the encoding half, with room for its image. */
  lemma EncodeInts(s: Stream, vs: seq<int32>)
    requires s.op == Encode && s.offset + |Wires(vs, IntWire)| <= |s.buf|
    ensures Vector(s, vs, Int).ok && Appended(s, Vector(s, vs, Int).s, Wires(vs, IntWire))
  {
    IntRoundTrip();
    EachSucceeds(s, vs, Int, IntWire);
    EachEncodes(s, vs, Int, IntWire);
  }

  /** The union call of the encoding half, with room for its 8 bytes. */
  lemma EncodeUnion(s: Stream, body: Payload)
    requires s.op == Encode && s.offset + 8 <= |s.buf|
    ensures Terminated(FilterDir)
    ensures var r := Union(s, UnionVal(Character as int32, body), FilterDir, None);
            r.ok && Appended(s, r.s, IntWire(Character) + CharWire(body.character))
  {
    var uv := UnionVal(Character as int32, body);
    var image := (p: Payload) => CharWire(p.character);
    CharRoundTrip();
    assert EncodesAs(OnCharacter, image);
    assert FilterDir[3].discr == 0;
    assert FirstMatch(FilterDir, Character, 2);
    var discrim := Int(s, uv.discr);
    UnionRunsFirstMatch(s, uv, FilterDir, None, 2);
    assert OnCharacter(discrim.s, body).ok;
    UnionEncodes(s, uv, FilterDir, None, 2, image);
  }

  /** The INT and string calls of the encoding half. */
  lemma EncodeFront(e: Stream, v: Values)
    requires e.op == Encode && Exchangeable(v)
    requires e.offset + UnitSize + |CountedWire(CStr(v.str.value))| <= |e.buf|
    ensures var f := Front(e, v);
            f.ok && f.v == v && Appended(e, f.s, IntWire(v.i) + CountedWire(CStr(v.str.value)))
  {
    var i := Int(e, v.i);
    EncodeString(i.s, v.str.value);
    AppendedTrans(e, i.s, String(i.s, v.str, 256, 0).s, IntWire(v.i), CountedWire(CStr(v.str.value)));
  }

  /** The vector and union calls of the encoding half. */
  lemma EncodeBack(s: Stream, v: Values)
    requires s.op == Encode && v.disc == Character as int32
    requires s.offset + |Wires(v.aint, IntWire)| + 2 * UnitSize <= |s.buf|
    ensures var b := Back(s, v);
            b.ok && Appended(s, b.s, Wires(v.aint, IntWire) + (IntWire(Character) + CharWire(v.body.character)))
  {
    EncodeInts(s, v.aint);
    var a := Vector(s, v.aint, Int);
    EncodeUnion(a.s, v.body);
    AppendedTrans(s, a.s, Back(s, v).s, Wires(v.aint, IntWire), IntWire(Character) + CharWire(v.body.character));
  }

  /** The encoding half: with room for the image in the caller's region,
      every call succeeds and the image is appended. */
  lemma ExchangeEncodes(e: Stream, v: Values)
    requires e.op == Encode && Exchangeable(v) && |v.aint| < 0x1000_0000
    requires e.offset + |ImageOf(v)| <= |e.buf|
    ensures var sent := Exchange(e, v);
            sent.ok && Appended(e, sent.s, ImageOf(v))
  {
    var front := IntWire(v.i) + CountedWire(CStr(v.str.value));
    var back := Wires(v.aint, IntWire) + (IntWire(Character) + CharWire(v.body.character));
    assert ImageOf(v) == front + back;
    EncodeFront(e, v);
    var f := Front(e, v);
    EncodeBack(f.s, v);
    AppendedTrans(e, f.s, Back(f.s, v).s, front, back);
  }

  /** The union call of the decoding half: the CHARACTER arm reads the
      character. */
  lemma DecodeUnion(d: Stream, body: Payload, c: byte)
    requires d.op == Decode && HoldsAt(d, IntWire(Character) + CharWire(c))
    ensures Terminated(FilterDir)
    ensures var r := Union(d, UnionVal(Character as int32, body), FilterDir, None);
            r.ok && r.s == Advance(d, 2 * UnitSize) && r.v.discr == Character as int32 && r.v.body.character == c
  {
    var uv := UnionVal(Character as int32, body);
    HoldsAtSplit(d, IntWire(Character), CharWire(c));
    IntRoundTrip();
    CharRoundTrip();
    assert Int(d, uv.discr) == Res(true, Advance(d, UnitSize), Character as int32);
    assert FilterDir[3].discr == 0;
    assert FirstMatch(FilterDir, Character, 2);
    UnionRunsFirstMatch(d, uv, FilterDir, None, 2);
    assert Char(Advance(d, UnitSize), body.character) == Res(true, Advance(d, 2 * UnitSize), c);
  }

  /** The INT call of the decoding half. */
  lemma DecodeInt(d: Stream, t: int32, v: int32)
    requires d.op == Decode && HoldsAt(d, IntWire(v))
    ensures Int(d, t) == Res(true, Advance(d, UnitSize), v)
  {
    IntRoundTrip();
  }

  /** The vector call of the decoding half. */
  lemma DecodeInts(d: Stream, t: seq<int32>, vs: seq<int32>)
    requires d.op == Decode && |t| == |vs| && HoldsAt(d, Wires(vs, IntWire))
    ensures Vector(d, t, Int) == Res(true, Advance(d, |Wires(vs, IntWire)|), vs)
  {
    IntRoundTrip();
    EachDecodes(d, t, vs, Int, IntWire);
  }

  /** The INT and string calls of the decoding half. */
  lemma DecodeFront(d: Stream, t: Values, v: Values)
    requires d.op == Decode && Exchangeable(v) && (t.str.Some? ==> 0 in t.str.value)
    requires HoldsAt(d, IntWire(v.i) + CountedWire(CStr(v.str.value)))
    ensures var f := Front(d, t);
            && f.ok && f.v.i == v.i && f.s == Advance(d, |IntWire(v.i) + CountedWire(CStr(v.str.value))|)
            && f.v.str.Some? && 0 in f.v.str.value && CStr(f.v.str.value) == CStr(v.str.value)
  {
    var str := CStr(v.str.value);
    HoldsAtSplit(d, IntWire(v.i), CountedWire(str));
    DecodeInt(d, t.i, v.i);
    StringDecodesWire(Advance(d, UnitSize), t.str, str, 256, 0);
  }

  /** The vector and union calls of the decoding half. */
  lemma DecodeBack(d: Stream, t: Values, v: Values)
    requires d.op == Decode && |t.aint| == |v.aint|
    requires HoldsAt(d, Wires(v.aint, IntWire) + (IntWire(Character) + CharWire(v.body.character)))
    ensures Terminated(FilterDir)
    ensures var b := Back(d, t);
            && b.ok && b.s == Advance(d, |Wires(v.aint, IntWire) + (IntWire(Character) + CharWire(v.body.character))|)
            && b.v.aint == v.aint && b.v.disc == Character as int32 && b.v.body.character == v.body.character
  {
    HoldsAtSplit(d, Wires(v.aint, IntWire), IntWire(Character) + CharWire(v.body.character));
    DecodeInts(d, t.aint, v.aint);
    DecodeUnion(Advance(d, |Wires(v.aint, IntWire)|), t.body, v.body.character);
  }

  /** The decoding half: a stream holding the image of v, read into
      variables with a terminated string and as many INTs, gives back v's
      INT, characters, INTs, discriminant and character. */
  lemma ExchangeDecodes(d: Stream, t: Values, v: Values)
    requires d.op == Decode && Exchangeable(v) && |v.aint| < 0x1000_0000
    requires |t.aint| == |v.aint| && (t.str.Some? ==> 0 in t.str.value)
    requires HoldsAt(d, ImageOf(v))
    ensures var back := Exchange(d, t);
            && back.ok && back.s == Advance(d, |ImageOf(v)|) && back.v.i == v.i
            && back.v.str.Some? && 0 in back.v.str.value && CStr(back.v.str.value) == CStr(v.str.value)
            && back.v.aint == v.aint && back.v.disc == v.disc && back.v.body.character == v.body.character
  {
    var f := HalvesDecode(d, t, v);
    assert Exchange(d, t) == Res(true, Back(f.s, f.v).s, Back(f.s, f.v).v);
  }

  /** The two halves of the decoding direction, one after the other. */
  lemma HalvesDecode(d: Stream, t: Values, v: Values) returns (f: Res<Values>)
    requires d.op == Decode && Exchangeable(v) && |v.aint| < 0x1000_0000
    requires |t.aint| == |v.aint| && (t.str.Some? ==> 0 in t.str.value)
    requires HoldsAt(d, ImageOf(v))
    ensures f == Front(d, t) && f.ok && f.v.i == v.i
    ensures f.v.str.Some? && 0 in f.v.str.value && CStr(f.v.str.value) == CStr(v.str.value)
    ensures var b := Back(f.s, f.v);
            && b.ok && b.s == Advance(d, |ImageOf(v)|)
            && b.v.i == v.i && b.v.str == f.v.str
            && b.v.aint == v.aint && b.v.disc == v.disc && b.v.body.character == v.body.character
  {
    var front := IntWire(v.i) + CountedWire(CStr(v.str.value));
    var back := Wires(v.aint, IntWire) + (IntWire(Character) + CharWire(v.body.character));
    ImageHalves(d, v);
    HoldsAtSplit(d, front, back);
    DecodeFront(d, t, v);
    f := Front(d, t);
    DecodeBack(f.s, f.v, v);
  }

  /** The image is the front half's image followed by the back half's, and
      moving past both moves past the image. */
  lemma ImageHalves(d: Stream, v: Values)
    requires Exchangeable(v) && |v.aint| < 0x1000_0000
    ensures var front := IntWire(v.i) + CountedWire(CStr(v.str.value));
            var back := Wires(v.aint, IntWire) + (IntWire(Character) + CharWire(v.body.character));
            && ImageOf(v) == front + back
            && Advance(Advance(d, |front|), |back|) == Advance(d, |ImageOf(v)|)
  {
    var front := IntWire(v.i) + CountedWire(CStr(v.str.value));
    var back := Wires(v.aint, IntWire) + (IntWire(Character) + CharWire(v.body.character));
    assert ImageOf(v) == front + back;
    AdvanceTwice(d, |front|, |back|);
  }

  /** The test's values fit the exchange, hold "test string", and make a
      44-byte image. */
  lemma SentValues(rest: seq<byte>)
    ensures Exchangeable(Sent(rest)) && CStr(Sent(rest).str.value) == TestString
    ensures |ImageOf(Sent(rest))| == 44
  {
    assert 0 !in TestString;
    CStrOfTerminated(Sent(rest).str.value, TestString);
    ImageLength(Sent(rest));
  }

  /** The overwritten variables are ready to receive the exchange. */
  lemma InvalidatedValues(rest: seq<byte>)
    ensures var t := Invalidated(rest);
            t.str.Some? && 0 in t.str.value && |t.aint| == 4 && t.disc == Character as int32
  {
    assert Invalidated(rest).str.value[18] == 0;
  }

  /** xdrtest.cpp on a memory stream: whatever the 4096-byte region held,
      encoding the four values fills its first 44 bytes, and decoding them
      from the region handed back by xdr_destroy restores 9, "test string",
      100..103 and the CHARACTER arm holding 'c'. */
  lemma XdrTestRoundTrip(pb: seq<byte>, sentRest: seq<byte>, backRest: seq<byte>)
    requires |pb| == 4096
    ensures var sent := Exchange(Create(Some(pb), Encode), Sent(sentRest));
            var region := Destroy(sent.s);
            && sent.ok && sent.s.offset == 44 && region.Some?
            && var back := Exchange(Create(region, Decode), Invalidated(backRest));
            && back.ok && back.v.i == 9
            && back.v.str.Some? && 0 in back.v.str.value && CStr(back.v.str.value) == TestString
            && back.v.aint == Ints && back.v.disc == Character as int32 && back.v.body.character == 'c' as byte
  {
    var e := Create(Some(pb), Encode);
    var v := Sent(sentRest);
    SentValues(sentRest);
    ExchangeEncodes(e, v);
    var sent := Exchange(e, v);
    EncodedBytesDecode(e, sent.s, ImageOf(v), sent.s.buf);
    InvalidatedValues(backRest);
    ExchangeDecodes(Create(Destroy(sent.s), Decode), Invalidated(backRest), v);
  }
}

=== FILE: varlen.dfy ===
/** The variable-length codecs of XDR.CPP: xdr_string (section 3.10 of
    RFC 1014), xdr_opaque (section 3.8) and xdr_bytes (section 3.9). Each
    payload is followed by zero bytes up to a unit boundary; string and bytes
    are preceded by a one-unit length. */
module VarLen {
  import opened Wrappers
  import opened Wire
  import opened MemStream
  import opened Codec
  import opened Primitives

  /** strlen: the index of the first 0 byte. */
  function FirstZero(b: seq<byte>): (i: nat)
    requires 0 in b
    ensures i < |b| && b[i] == 0
    ensures forall j :: 0 <= j < i ==> b[j] != 0
  {
    if b[0] == 0 then 0 else 1 + FirstZero(b[1..])
  }

  /** The characters of a 0-terminated buffer. */
  function CStr(b: seq<byte>): (str: seq<byte>)
    requires 0 in b
    ensures 0 !in str && |str| < |b|
    ensures b[..|str|] == str && b[|str|] == 0
  {
    b[..FirstZero(b)]
  }

  /** What xdr_string and xdr_bytes send for a payload p: its length in one
      unit, then p padded to a unit boundary. */
  function CountedWire(p: seq<byte>): (w: seq<byte>)
    requires |p| < 0x1_0000_0000
    ensures |w| == UnitSize + RndUp(|p|) && |w| % UnitSize == 0
  {
    Unit(|p|) + Padded(p)
  }

  /** The full units of p are written first, then the remaining bytes in a
      zero-filled unit of their own (shared by xdr_string, xdr_opaque and
      xdr_bytes). A failure of the second write leaves the first in place. */
  function WritePadded(s: Stream, p: seq<byte>): (r: Outcome)
    ensures r.ok <==> s.owned || s.offset + RndUp(|p|) <= |s.buf|
    ensures r.ok ==> Appended(s, r.s, Padded(p))
    ensures !r.ok ==> r.s == s || Appended(s, r.s, p[..|p| / 4 * 4])
    ensures r.ok ==> |s.buf| <= |r.s.buf|
  {
    var last := |p| / 4 * 4;
    PaddedParts(p);
    var w := Write(s, p[..last]);
    if !w.ok || last == |p| then w
    else
      var tail := p[last..] + Zeros(UnitSize - (|p| - last));
      var t := Write(w.s, tail);
      if !t.ok then t
      else
        AppendedTrans(s, w.s, t.s, p[..last], tail);
        t
  }

  /** The padded image of p is its full units followed by its remaining
      bytes in a zero-filled unit of their own, if any remain. */
  lemma PaddedParts(p: seq<byte>)
    ensures var last := |p| / 4 * 4;
            && last <= |p| < last + UnitSize
            && (last == |p| ==> RndUp(|p|) == last && Padded(p) == p[..last])
            && (last < |p| ==> RndUp(|p|) == last + UnitSize)
            && (last < |p| ==> Padded(p) == p[..last] + (p[last..] + Zeros(UnitSize - (|p| - last))))
  {
    var last := |p| / 4 * 4;
    FullUnits(|p|);
    if last == |p| {
      assert Padded(p) == p[..last];
    } else {
      assert Padded(p) == p[..last] + (p[last..] + Zeros(UnitSize - (|p| - last)));
    }
  }

  /** The length of the full units of an n-byte payload, and how RNDUP
      relates to it. */
  lemma FullUnits(n: nat)
    ensures n / 4 * 4 <= n < n / 4 * 4 + UnitSize
    ensures n / 4 * 4 == n ==> RndUp(n) == n
    ensures n / 4 * 4 < n ==> RndUp(n) == n / 4 * 4 + UnitSize
  {
  }

  /** The size malloc'ed by xdr_string for a string of len bytes. */
  function StringAlloc(len: nat): (n: nat)
    ensures n >= len + 1 && n >= RndUp(len)
    ensures len % UnitSize == 0 ==> n == len + 1
    ensures len % UnitSize != 0 ==> n == RndUp(len)
  {
    if len == RndUp(len) then len + 1 else RndUp(len)
  }

  /** data copied over the start of prior; prior's bytes past data survive. A
      caller's buffer shorter than data is taken as extended (the C code
      would write past its end). */
  function Overlay(prior: seq<byte>, data: seq<byte>): (b: seq<byte>)
    ensures |b| == if |data| <= |prior| then |prior| else |data|
    ensures b[..|data|] == data
    ensures forall i :: |data| <= i < |prior| ==> b[i] == prior[i]
  {
    if |data| <= |prior| then data + prior[|data|..] else data
  }

  /** Puts the terminator at index len, extending the buffer by one byte
      when len is its length. */
  function Terminate(b: seq<byte>, len: nat): (t: seq<byte>)
    requires len <= |b|
    ensures |t| == if len < |b| then |b| else len + 1
    ensures t[..len] == b[..len] && t[len] == 0
    ensures forall i :: len < i < |b| ==> t[i] == b[i]
  {
    if len < |b| then b[len := 0] else b + [0]
  }

  /** xdr_string. Free mode releases the buffer and leaves the slot NULL. */
  function String(s: Stream, slot: Option<seq<byte>>, max: uint32, junk: uint32): (r: Res<Option<seq<byte>>>)
    requires s.op == Encode && slot.Some? ==> 0 in slot.value
    ensures s.op == Free ==> r == Res(true, s, None)
    ensures s.op == Encode && slot.Some? && |CStr(slot.value)| <= max && s.owned ==> r.ok
    ensures s.op == Encode && slot.Some? && |CStr(slot.value)| <= max && !s.owned && s.offset + UnitSize + RndUp(|CStr(slot.value)|) <= |s.buf| ==> r.ok
    ensures s.op == Decode && slot.None? && s.offset + UnitSize <= |s.buf| && UnitAt(s) <= max ==> r.v.Some?
  {
    match s.op
    case Encode => StringEncode(s, slot, max)
    case Decode => StringDecode(s, slot, max, junk)
    case Free => Res(true, s, None)
  }

  /** The encode half of xdr_string. It refuses a NULL pointer or a string
      longer than max before touching the stream; the result of writing the
      length is not checked, so a failed length write can still end in
      success. */
  function StringEncode(s: Stream, slot: Option<seq<byte>>, max: uint32): (r: Res<Option<seq<byte>>>)
    requires s.op == Encode && (slot.Some? ==> 0 in slot.value)
    ensures r.v == slot
    ensures slot.None? || |CStr(slot.value)| > max ==> !r.ok && r.s == s
    ensures slot.Some? && |CStr(slot.value)| <= max ==>
              (r.ok <==> s.owned || s.offset + UnitSize + RndUp(|CStr(slot.value)|) <= |s.buf|
                         || (s.offset + UnitSize > |s.buf| && s.offset + RndUp(|CStr(slot.value)|) <= |s.buf|))
    ensures r.ok && (s.owned || s.offset + UnitSize <= |s.buf|) ==>
              Appended(s, r.s, CountedWire(CStr(slot.value)))
  {
    if slot.None? || |CStr(slot.value)| > max then Res(false, s, slot)
    else
      var str := CStr(slot.value);
      var lenWrite := UInt(s, |str|);
      var w := WritePadded(lenWrite.s, str);
      if w.ok && lenWrite.ok then
        AppendedTrans(s, lenWrite.s, w.s, Unit(|str|), Padded(str));
        Res(true, w.s, slot)
      else Res(w.ok, w.s, slot)
  }

  /** What xdr_string leaves in the target buffer after reading RNDUP(len)
      bytes into it: those bytes over the buffer's start, then a terminator at
      index len. */
  function Fill(target: seq<byte>, data: seq<byte>, len: nat): (b: seq<byte>)
    requires len <= |data|
    ensures len < |b| && |data| <= |b| && b[..len] == data[..len] && b[len] == 0
    ensures len < |target| && |data| <= |target| ==> |b| == |target|
    ensures len == |data| && |target| <= len + 1 ==> |b| == len + 1
    ensures len < |data| && |target| <= |data| ==> |b| == |data|
    ensures forall i :: len < i < |data| ==> b[i] == data[i]
  {
    var o := Overlay(target, data);
    assert o[..len] == data[..len];
    Terminate(o, len)
  }

  /** The length unit as xdr_string and xdr_bytes read it: the unit at the
      cursor when the buffer holds one; otherwise the read fails, the cursor
      stays and the variable keeps what it held. */
  function LengthRead(s: Stream, prior: uint32): (r: Res<uint32>)
    requires s.op == Decode
    ensures s.offset + UnitSize <= |s.buf| ==> r == Res(true, Advance(s, UnitSize), UnitAt(s))
    ensures s.offset + UnitSize > |s.buf| ==> r == Res(false, s, prior)
  {
    UInt(s, prior)
  }

  /** The decode half of xdr_string. The result of reading the length is not
      checked: when that read fails, the payload is read at the unmoved
      cursor with the uninitialised local `len` (junk) as its length. */
  function StringDecode(s: Stream, slot: Option<seq<byte>>, max: uint32, junk: uint32): (r: Res<Option<seq<byte>>>)
    requires s.op == Decode
    ensures s.offset + UnitSize <= |s.buf| ==> r == StringAfterLength(Advance(s, UnitSize), slot, max, UnitAt(s))
    ensures s.offset + UnitSize > |s.buf| ==> r == StringAfterLength(s, slot, max, junk)
  {
    var len := LengthRead(s, junk);
    StringAfterLength(len.s, slot, max, len.v)
  }

  /** The decode half of xdr_string once the length is known. A length above
      max fails before any allocation. A NULL target gets a fresh buffer
      (indeterminate in the C library, zero here) of len+1 bytes when len is a
      multiple of 4 and RNDUP(len) otherwise; it stays with the caller even
      when the payload read fails. The payload and its pad are read into the
      buffer and a terminator is put at index len. */
  function StringAfterLength(t: Stream, slot: Option<seq<byte>>, max: uint32, len: uint32): (r: Res<Option<seq<byte>>>)
    ensures r.ok <==> len <= max && t.offset + RndUp(len) <= |t.buf|
    ensures len > max ==> r == Res(false, t, slot)
    ensures len <= max ==> r.v.Some?
    ensures len <= max && !r.ok ==> r.s == t
    ensures len <= max && slot.None? ==> |r.v.value| == StringAlloc(len)
    ensures r.ok ==>
              && r.s == Advance(t, RndUp(len))
              && len < |r.v.value| && r.v.value[len] == 0
              && r.v.value[..len] == t.buf[t.offset..t.offset + len]
  {
    if len > max then Res(false, t, slot)
    else
      var b := ReadInto(t, StringTarget(slot, len), len);
      Res(b.ok, b.s, Some(b.v))
  }

  /** The buffer xdr_string decodes into: the caller's, or a fresh one. */
  function StringTarget(slot: Option<seq<byte>>, len: nat): (b: seq<byte>)
    ensures slot.Some? ==> b == slot.value
    ensures slot.None? ==> |b| == StringAlloc(len) && forall i :: 0 <= i < |b| ==> b[i] == 0
  {
    if slot.None? then Zeros(StringAlloc(len)) else slot.value
  }

  /** Reading RNDUP(len) bytes over the start of target and terminating it at
      index len. A failed read leaves target as it was. */
  function ReadInto(t: Stream, target: seq<byte>, len: uint32): (r: Res<seq<byte>>)
    ensures r.ok <==> t.offset + RndUp(len) <= |t.buf|
    ensures !r.ok ==> r == Res(false, t, target)
    ensures r.ok ==>
              && r.s == Advance(t, RndUp(len))
              && len < |r.v| && r.v[len] == 0
              && r.v[..len] == t.buf[t.offset..t.offset + len]
    ensures len < |target| && RndUp(len) <= |target| ==> |r.v| == |target|
    ensures r.ok ==> RndUp(len) <= |r.v|
    ensures r.ok ==> forall i :: len < i < RndUp(len) ==> r.v[i] == t.buf[t.offset + i]
  {
    var payload := Read(t, RndUp(len));
    if !payload.ok then Res(false, t, target)
    else
      assert payload.data == t.buf[t.offset..t.offset + RndUp(len)];
      assert payload.data[..len] == t.buf[t.offset..t.offset + len];
      Res(true, payload.s, Fill(target, payload.data, len))
  }

  /** A string of at most max characters decodes from its counted, padded
      wire image to the same characters, consuming exactly that image; into
      a NULL target it arrives as the characters, the terminator and zero
      bytes up to the allocated size. */
  lemma StringDecodesWire(d: Stream, t: Option<seq<byte>>, str: seq<byte>, max: uint32, junk: uint32)
    requires d.op == Decode && |str| <= max && 0 !in str
    requires HoldsAt(d, CountedWire(str))
    ensures var r := String(d, t, max, junk);
            && r.ok && r.s == Advance(d, |CountedWire(str)|)
            && r.v.Some? && 0 in r.v.value && CStr(r.v.value) == str
            && (t.None? ==> r.v.value == str + Zeros(StringAlloc(|str|) - |str|))
  {
    HoldsAtSplit(d, Unit(|str|), Padded(str));
    assert UnitAt(d) == |str|;
    ReadIntoPadded(Advance(d, UnitSize), StringTarget(t, |str|), str);
  }

  /** The payload part of StringDecodesWire, after the length unit. */
  lemma ReadIntoPadded(after: Stream, target: seq<byte>, str: seq<byte>)
    requires |str| < 0x1_0000_0000 && 0 !in str
    requires HoldsAt(after, Padded(str))
    ensures var r := ReadInto(after, target, |str|);
            && r.ok && r.s == Advance(after, RndUp(|str|))
            && 0 in r.v && CStr(r.v) == str
            && (target == Zeros(StringAlloc(|str|)) ==> r.v == str + Zeros(StringAlloc(|str|) - |str|))
  {
    var r := ReadInto(after, target, |str|);
    var len := |str|;
    var w := after.buf[after.offset..after.offset + RndUp(len)];
    assert w == Padded(str);
    assert r.v[..len] == w[..len];
    CStrOfTerminated(r.v, str);
    if target == Zeros(StringAlloc(len)) {
      forall i | len < i < |r.v|
        ensures r.v[i] == 0
      {
        assert i < RndUp(len);
        assert r.v[i] == w[i];
      }
      AllocatedString(r.v, str);
    }
  }

  /** A freshly allocated string buffer holding the characters, the
      terminator and then only zero bytes is the characters followed by
      zeros. */
  lemma AllocatedString(b: seq<byte>, str: seq<byte>)
    requires |b| == StringAlloc(|str|) && b[..|str|] == str && b[|str|] == 0
    requires forall i :: |str| < i < |b| ==> b[i] == 0
    ensures b == str + Zeros(StringAlloc(|str|) - |str|)
  {
    var expected := str + Zeros(StringAlloc(|str|) - |str|);
    forall k | 0 <= k < |b|
      ensures b[k] == expected[k]
    {
      if k < |str| {
        assert b[k] == b[..|str|][k];
      }
    }
  }

  /** A buffer holding characters without a 0, then a 0, holds exactly those
      characters as a C string. */
  lemma CStrOfTerminated(b: seq<byte>, str: seq<byte>)
    requires 0 !in str && |str| < |b| && b[..|str|] == str && b[|str|] == 0
    ensures 0 in b && CStr(b) == str
  {
    assert forall j :: 0 <= j < |str| ==> b[j] == str[j];
  }

  /** Encoding a string and decoding what was written gives the string back,
      whatever buffer the decoder starts with. */
  lemma StringRoundTrip(e: Stream, b: seq<byte>, max: uint32, junk: uint32, t: Option<seq<byte>>)
    requires e.op == Encode && 0 in b && e.offset == 0
    requires e.owned || UnitSize <= |e.buf|
    requires String(e, Some(b), max, junk).ok
    ensures var sent := String(e, Some(b), max, junk).s;
            var back := String(Create(Some(sent.buf), Decode), t, max, junk);
            back.ok && back.v.Some? && 0 in back.v.value && CStr(back.v.value) == CStr(b)
  {
    var str := CStr(b);
    var sent := String(e, Some(b), max, junk).s;
    assert Appended(e, sent, CountedWire(str));
    EncodedBytesDecode(e, sent, CountedWire(str), sent.buf);
    StringDecodesWire(Create(Some(sent.buf), Decode), t, str, max, junk);
  }

  /** The unchecked length write: encoding the empty string into a caller's
      buffer that is already full reports success and writes nothing. */
  lemma EmptyStringIntoFullBuffer(s: Stream, max: uint32, junk: uint32)
    requires s.op == Encode && !s.owned && s.offset == |s.buf|
    ensures String(s, Some([0]), max, junk) == Res(true, s, Some([0]))
  {
    assert CStr([0]) == [];
  }

  /** The unchecked length read: at the end of a caller's buffer, with an
      uninitialised length that happens to be 0, decoding reports success
      and yields the empty string without a length on the wire. */
  lemma StringDecodeWithoutLength(s: Stream, max: uint32)
    requires s.op == Decode && s.offset == |s.buf|
    ensures var r := String(s, None, max, 0);
            r.ok && r.s == s && r.v == Some([0])
  {
    var b := ReadInto(s, StringTarget(None, 0), 0);
    assert |b.v| == 1 && b.v[0] == 0;
    assert b.v == [0];
  }

  /** xdr_opaque: size bytes agreed out of band, padded with zero bytes on
      encode; decode reads the payload into the caller's buffer, then reads
      and ignores the pad bytes. A failed pad read leaves the payload already
      copied. Free mode does nothing. */
  function Opaque(s: Stream, v: seq<byte>, size: uint32): (r: Res<seq<byte>>)
    requires size <= |v|
    ensures s.op == Encode ==> r.v == v && (r.ok <==> s.owned || s.offset + RndUp(size) <= |s.buf|)
    ensures s.op == Encode && r.ok ==> Appended(s, r.s, Padded(v[..size])) && |s.buf| <= |r.s.buf|
    ensures s.op == Decode ==> (r.ok <==> s.offset + RndUp(size) <= |s.buf|)
    ensures s.op == Decode && s.offset + size <= |s.buf| ==>
              |r.v| == |v| && r.v[..size] == s.buf[s.offset..s.offset + size] && r.v[size..] == v[size..]
    ensures s.op == Decode && r.ok ==> r.s == Advance(s, RndUp(size))
    ensures s.op == Decode && s.offset + size > |s.buf| ==> r == Res(false, s, v)
    ensures s.op == Free ==> r == Res(true, s, v)
  {
    match s.op
    case Encode =>
      var w := WritePadded(s, v[..size]);
      Res(w.ok, w.s, v)
    case Decode =>
      var payload := Read(s, size);
      if !payload.ok then Res(false, s, v)
      else
        var pad := Read(payload.s, RndUp(size) - size);
        Res(pad.ok, pad.s, payload.data + v[size..])
    case Free => Res(true, s, v)
  }

  /** Opaque data round-trips through its padded image: encode then decode
      of the same size gives the payload back and both sides move the
      cursor by RNDUP(size). */
  lemma OpaqueRoundTrip(e: Stream, p: seq<byte>, size: uint32, t: seq<byte>)
    requires e.op == Encode && e.offset == 0 && |e.buf| > 0 && size <= |p| && size <= |t|
    requires Opaque(e, p, size).ok
    ensures var sent := Opaque(e, p, size).s;
            var back := Opaque(Create(Some(sent.buf), Decode), t, size);
            && sent.offset == RndUp(size)
            && back.ok && back.s.offset == RndUp(size) && back.v[..size] == p[..size]
  {
    var sent := Opaque(e, p, size).s;
    EncodedBytesDecode(e, sent, Padded(p[..size]), sent.buf);
    var d := Create(Some(sent.buf), Decode);
    assert d.buf[d.offset..d.offset + size] == Padded(p[..size])[..size];
  }

  /** The length and the pointer behind xdr_bytes' BYTE ** and UINT *. */
  datatype BytesVal = BytesVal(slot: Option<seq<byte>>, size: uint32)

  /** xdr_bytes. Free mode releases the buffer and leaves the slot NULL. */
  function Bytes(s: Stream, val: BytesVal, max: uint32): (r: Res<BytesVal>)
    requires s.op == Encode && val.slot.Some? && val.size <= max ==> val.size <= |val.slot.value|
    ensures s.op == Free ==> r == Res(true, s, val.(slot := None))
    ensures s.op == Encode && val.slot.Some? && val.size <= max && s.owned ==> r.ok
    ensures s.op == Decode && s.offset + UnitSize <= |s.buf| ==> r.v.size == UnitAt(s)
  {
    match s.op
    case Encode => BytesEncode(s, val, max)
    case Decode => BytesDecode(s, val, max)
    case Free => Res(true, s, val.(slot := None))
  }

  /** The encode half of xdr_bytes. It refuses a NULL pointer or a size
      above max before touching the stream, and does not check the result of
      writing the length. */
  function BytesEncode(s: Stream, val: BytesVal, max: uint32): (r: Res<BytesVal>)
    requires s.op == Encode
    requires val.slot.Some? && val.size <= max ==> val.size <= |val.slot.value|
    ensures r.v == val
    ensures val.slot.None? || val.size > max ==> !r.ok && r.s == s
    ensures val.slot.Some? && val.size <= max ==>
              (r.ok <==> s.owned || s.offset + UnitSize + RndUp(val.size) <= |s.buf|
                         || (s.offset + UnitSize > |s.buf| && s.offset + RndUp(val.size) <= |s.buf|))
    ensures r.ok && (s.owned || s.offset + UnitSize <= |s.buf|) ==>
              Appended(s, r.s, CountedWire(val.slot.value[..val.size]))
  {
    if val.slot.None? || val.size > max then Res(false, s, val)
    else
      var p := val.slot.value[..val.size];
      var lenWrite := UInt(s, val.size);
      var w := WritePadded(lenWrite.s, p);
      if w.ok && lenWrite.ok then
        AppendedTrans(s, lenWrite.s, w.s, Unit(val.size), Padded(p));
        Res(true, w.s, val)
      else Res(w.ok, w.s, val)
  }

  /** The decode half of xdr_bytes. The result of reading the length is not
      checked: when that read fails the caller's *psize stays and is used as
      the length, at the unmoved cursor. */
  function BytesDecode(s: Stream, val: BytesVal, max: uint32): (r: Res<BytesVal>)
    requires s.op == Decode
    ensures s.offset + UnitSize <= |s.buf| ==> r == BytesAfterLength(Advance(s, UnitSize), val, max, UnitAt(s))
    ensures s.offset + UnitSize > |s.buf| ==> r == BytesAfterLength(s, val, max, val.size)
  {
    var len := LengthRead(s, val.size);
    BytesAfterLength(len.s, val, max, len.v)
  }

  /** The decode half of xdr_bytes once the length n is known (and stored in
      *psize). A length above max fails before any allocation. A NULL target
      gets a fresh buffer of RNDUP(n) bytes that stays with the caller even
      when the payload read fails. The payload and its pad are read over the
      start of the buffer. */
  function BytesAfterLength(t: Stream, val: BytesVal, max: uint32, n: uint32): (r: Res<BytesVal>)
    ensures r.v.size == n
    ensures r.ok <==> n <= max && t.offset + RndUp(n) <= |t.buf|
    ensures n > max ==> r == Res(false, t, val.(size := n))
    ensures n <= max && !r.ok ==> r.s == t && r.v.slot.Some?
    ensures n <= max && val.slot.None? ==> r.v.slot.Some? && |r.v.slot.value| == RndUp(n)
    ensures r.ok ==>
              && r.s == Advance(t, RndUp(n))
              && r.v.slot.Some? && RndUp(n) <= |r.v.slot.value|
              && r.v.slot.value[..RndUp(n)] == t.buf[t.offset..t.offset + RndUp(n)]
  {
    if n > max then Res(false, t, val.(size := n))
    else
      var target := if val.slot.None? then Zeros(RndUp(n)) else val.slot.value;
      var payload := Read(t, RndUp(n));
      if !payload.ok then Res(false, t, BytesVal(Some(target), n))
      else Res(true, payload.s, BytesVal(Some(Overlay(target, payload.data)), n))
  }

  /** Bytes of at most max length decode from their counted, padded wire
      image: the length comes back, the payload is at the front of the
      buffer, and a NULL target receives exactly the padded payload. */
  lemma BytesDecodesWire(d: Stream, t: BytesVal, p: seq<byte>, max: uint32)
    requires d.op == Decode && |p| <= max
    requires HoldsAt(d, CountedWire(p))
    ensures var r := Bytes(d, t, max);
            && r.ok && r.s == Advance(d, |CountedWire(p)|)
            && r.v.size == |p| && r.v.slot.Some? && r.v.slot.value[..|p|] == p
            && (t.slot.None? ==> r.v.slot.value == Padded(p))
  {
    HoldsAtSplit(d, Unit(|p|), Padded(p));
    var n := UnitValue(d.buf[d.offset..d.offset + UnitSize]);
    assert n == |p|;
    var r := Bytes(d, t, max);
    var b := r.v.slot.value;
    assert b[..RndUp(n)] == Padded(p);
    assert b[..|p|] == b[..RndUp(n)][..|p|];
  }

  /** Encoding bytes and decoding what was written gives the length and the
      payload back, whatever buffer the decoder starts with. */
  lemma BytesRoundTrip(e: Stream, val: BytesVal, max: uint32, t: BytesVal)
    requires e.op == Encode && e.offset == 0 && val.slot.Some? && val.size <= max && val.size <= |val.slot.value|
    requires e.owned || UnitSize <= |e.buf|
    requires Bytes(e, val, max).ok
    ensures var sent := Bytes(e, val, max).s;
            var back := Bytes(Create(Some(sent.buf), Decode), t, max);
            && back.ok && back.v.size == val.size && back.v.slot.Some?
            && back.v.slot.value[..val.size] == val.slot.value[..val.size]
  {
    var p := val.slot.value[..val.size];
    var sent := Bytes(e, val, max).s;
    assert Appended(e, sent, CountedWire(p));
    EncodedBytesDecode(e, sent, CountedWire(p), sent.buf);
    BytesDecodesWire(Create(Some(sent.buf), Decode), t, p, max);
  }

  /** The unchecked length read: at the end of a caller's buffer, a target
      whose *psize is 0 decodes successfully with nothing on the wire. */
  lemma BytesDecodeWithoutLength(s: Stream, max: uint32)
    requires s.op == Decode && s.offset == |s.buf|
    ensures Bytes(s, BytesVal(None, 0), max) == Res(true, s, BytesVal(Some([]), 0))
  {
  }
}

=== FILE: wire.dfy ===
/** The integer widths of the OS/2 types the library uses, the XDR unit of
    section 2 of RFC 1014, and the most-significant-byte-first layout of a
    32-bit value inside one unit (sections 3.1 and 3.2 of RFC 1014). */
module Wire {

  type byte = x: int | 0 <= x < 0x100
  type uint16 = x: int | 0 <= x < 0x1_0000
  type int16 = x: int | -0x8000 <= x < 0x8000
  type uint32 = x: int | 0 <= x < 0x1_0000_0000
  type int32 = x: int | -0x8000_0000 <= x < 0x8000_0000

  /** BYTES_PER_XDR_UNIT */
  const UnitSize: nat := 4

  /** RNDUP: the smallest multiple of the unit size that is at least n. */
  function RndUp(n: nat): (r: nat)
    ensures r % UnitSize == 0
    ensures n <= r < n + UnitSize
  {
    (n + 3) / 4 * 4
  }

  /** A run of n zero bytes. */
  function Zeros(n: nat): (z: seq<byte>)
    ensures |z| == n
    ensures forall i :: 0 <= i < n ==> z[i] == 0
  {
    seq(n, _ => 0)
  }

  /** A payload followed by zero bytes up to the next unit boundary. */
  function Padded(p: seq<byte>): (w: seq<byte>)
    ensures |w| == RndUp(|p|)
    ensures w[..|p|] == p
    ensures forall i :: |p| <= i < |w| ==> w[i] == 0
  {
    p + Zeros(RndUp(|p|) - |p|)
  }

  /** One XDR unit holding v, most significant byte first. */
  function Unit(v: uint32): (u: seq<byte>)
    ensures |u| == UnitSize
    ensures UnitValue(u) == v
  {
    var b0, b1, b2, b3 := v / 0x100_0000, (v / 0x1_0000) % 0x100, (v / 0x100) % 0x100, v % 0x100;
    assert v == ((b0 * 0x100 + b1) * 0x100 + b2) * 0x100 + b3 by {
      assert v / 0x100 == (v / 0x1_0000) * 0x100 + b2;
      assert v / 0x1_0000 == b0 * 0x100 + b1;
    }
    [b0, b1, b2, b3]
  }

  /** The value of one XDR unit read most significant byte first. */
  function UnitValue(u: seq<byte>): (v: uint32)
    requires |u| == UnitSize
  {
    var b0: int, b1: int, b2: int, b3: int := u[0], u[1], u[2], u[3];
    ((b0 * 0x100 + b1) * 0x100 + b2) * 0x100 + b3
  }

  /** Every unit is the encoding of exactly one value: Unit and UnitValue are
      inverse bijections. */
  lemma UnitOfUnitValue(u: seq<byte>)
    requires |u| == UnitSize
    ensures Unit(UnitValue(u)) == u
  {
    var v := UnitValue(u);
    var b0: int, b1: int, b2: int, b3: int := u[0], u[1], u[2], u[3];
    var hi: int := (b0 * 0x100 + b1) * 0x100 + b2;
    assert v == hi * 0x100 + u[3];
    assert v % 0x100 == u[3] && v / 0x100 == hi;
    var mid: int := b0 * 0x100 + b1;
    assert hi % 0x100 == u[2] && hi / 0x100 == mid;
    assert v / 0x1_0000 == mid by {
      assert v / 0x1_0000 == (v / 0x100) / 0x100;
    }
    assert mid % 0x100 == u[1] && mid / 0x100 == u[0];
    assert v / 0x100_0000 == u[0] by {
      assert v / 0x100_0000 == (v / 0x1_0000) / 0x100;
    }
  }

  /** Two's complement reinterpretation of a signed 32-bit value (the cast
      between INT and UINT). */
  function ToBits(i: int32): (w: uint32)
    ensures 0 <= i ==> w == i
    ensures i < 0 ==> 0x8000_0000 <= w
  {
    if i < 0 then i + 0x1_0000_0000 else i
  }

  function FromBits(w: uint32): (i: int32)
    ensures ToBits(i) == w
  {
    if w < 0x8000_0000 then w else w - 0x1_0000_0000
  }

  /** Two's complement reinterpretation of a signed 16-bit value (the cast
      between SHORT and USHORT). */
  function ToBits16(i: int16): (w: uint16)
    ensures 0 <= i ==> w == i
    ensures i < 0 ==> 0x8000 <= w
  {
    if i < 0 then i + 0x1_0000 else i
  }

  function FromBits16(w: uint16): (i: int16)
    ensures ToBits16(i) == w
  {
    if w < 0x8000 then w else w - 0x1_0000
  }

  /** The signed/unsigned casts lose nothing. */
  lemma BitsRoundTrip(i: int32, j: int16)
    ensures FromBits(ToBits(i)) == i
    ensures FromBits16(ToBits16(j)) == j
  {
  }
}

=== FILE: wrappers.dfy ===
/** A nullable C pointer, as an ownership slot: None is NULL, Some holds what the
    pointer refers to. */
module Wrappers {

  datatype Option<+T> = None | Some(value: T)

}
